=== FILE: README.md ===
# copyright-hook, modelled in Dafny

copyright-hook is a pre-commit hook. It checks that the copyright header of each file ends in the year of the file's last change and proposes a fix when it does not. It has three logical parts, and this project models all of them as pure Dafny functions and proves properties about them:

- **Change sets and the git log** (`ChangeSets`, `GitLog`).
  - A `git --name-status` listing becomes a `GitChangeSet`: changed files, renames and touched files.
  - `git log --name-status --pretty=format:%aI` output becomes a list of commits, newest first.
- **History replay** (`History`). `compute_last_modified_dict` replays commits oldest to newest into an index from path to the author date of its last content change. Renames carry the source's date onto the destination.
- **Header pattern and decision** (`YearsRegex`, `YearsPattern`, `HeaderUpdate`, `Updater`).
  - A template such as `# (c) {years}, developers` becomes a regular expression. `extract` and `replace` read and rewrite the years it finds.
  - `update_file` is the decision table that compares those years with the expected year.
  - `run_copyright_updater` chooses each file's expected year, or skips the file.

`Results` holds `Option` and `Result`. `Text` holds the `str` operations the source relies on: `find`, `split`, `join`, `splitlines` followed by dropping empty lines, and `str(int)`.

The regular expression `prefix\s*(?:(?P<from>\d+)\s*-\s*(?P<to>\d+)|(?P<year>\d+))\s*suffix` is specified in three steps:

1. Parse trees (`RangeTreeAt`, `SingleTreeAt`), built from the range head and the tail `\s*\d+\s*suffix` that both alternatives share.
2. The order in which a backtracking matcher tries them (`IsSearchResult`): the leftmost start, the range alternative before the single year, and the longest `to` or `year` after which the suffix still follows.
3. A deterministic scanner (`Search`) is proved to return a search result. `SearchResultUnique` proves that every search result has the same captures, so the spans the scanner reports are the spans `re.search` reports.

The suffix may begin with a digit: the scanner backtracks over the last digit run exactly as the regex engine does.

Datetimes are an abstract type parameter `T`. `.year` and `<` are supplied as functions (`Updater.Calendar`). Git output, file contents and the clock are inputs.

## Model

| member | source | states |
|---|---|---|
| Text.FindFrom | copyrighthook/years_pattern.py:22 | the result is the first occurrence of the separator at or after the start; none means it occurs nowhere there |
| Text.Split | copyrighthook/git_utilities.py:40 | `str.split`: at least one part, the parts joined by the separator give back the text, no part contains the separator, and every part but the last ends at the separator's leftmost occurrence after it |
| Text.SplitJoin | copyrighthook/git_utilities.py:99 | splitting parts joined by a separator gives back the parts when no separator starts inside a part |
| Text.NonEmpty | copyrighthook/git_utilities.py:40 | the `if line` filter keeps only non-empty strings, and keeps none exactly when all are empty |
| Text.NonEmptyKeepsNonEmpty | copyrighthook/git_utilities.py:40 | a list without empty strings passes the filter unchanged |
| Text.NonEmptyMembers | copyrighthook/git_utilities.py:40 | a string is kept iff it occurs in the input and is not empty |
| Text.NonEmptyAppend | copyrighthook/git_utilities.py:40 | filtering a concatenation concatenates the filtered halves, so order is kept |
| Text.NonEmptyDropsBlank | copyrighthook/git_utilities.py:40 | an empty string anywhere is dropped without changing anything else |
| Text.Lines | copyrighthook/git_utilities.py:38-40 | `splitlines` then the `if line` filter yields only non-empty lines without line boundaries |
| Text.LinesAtBreak | copyrighthook/git_utilities.py:38-40 | a line boundary splits the text: the lines of the whole are the lines before it followed by those after it |
| Text.LinesOfPlain | copyrighthook/git_utilities.py:38-40 | text without a line boundary is one line, or none when empty |
| Text.BreakPiecesJoin | copyrighthook/git_utilities.py:39 | splitting at line boundaries inverts joining plain lines with "\n" |
| Text.Decimal | copyrighthook/copyright.py:138 | `str(year)`: non-empty decimal digits, no leading zero, denoting the number |
| ChangeSets.AddRecord | copyrighthook/git_utilities.py:21-31 | one pass of the construction loop: fails with the record's problem iff it is malformed; otherwise appends the record, touches its destination, changes it unless the code is "R100", and appends (source, destination) for a rename |
| ChangeSets.FromItems | copyrighthook/git_utilities.py:17-31 | construction succeeds exactly when every record has a type code and a destination (and a source if it is a rename), keeps the records, and otherwise reports the first malformed one |
| ChangeSets.TouchedFilesAreDestinations | copyrighthook/git_utilities.py:21-23 | a path is touched iff it is some record's last field |
| ChangeSets.ChangedFilesAreNonPureDestinations | copyrighthook/git_utilities.py:24-31 | a path is changed iff some record other than an "R100" has it as destination |
| ChangeSets.ChangedFilesAreTouched | copyrighthook/git_utilities.py:23-31 | changed files are a subset of touched files |
| ChangeSets.MovedFilesAreRenames | copyrighthook/git_utilities.py:21-28 | moved files are exactly one (source, destination) per "R…" record, in record order, and nothing for other codes |
| ChangeSets.RecordContribution | copyrighthook/git_utilities.py:21-31 | each record's destination is touched; it is changed unless the code is "R100"; a rename's pair is moved |
| ChangeSets.RenameWithChangesIsChanged | copyrighthook/git_utilities.py:24-28 | a rename code other than "R100" makes the destination both changed and moved |
| ChangeSets.Records | copyrighthook/git_utilities.py:40 | one record per non-empty line, in order: its fields joined by tabs give back that line, and no field holds a tab |
| ChangeSets.Parse | copyrighthook/git_utilities.py:36-40 | parsing a list of lines fails iff some non-empty line has too few tab-separated fields; on success the records are the tab-split non-empty lines, in order; the result is truthy iff some line is non-empty |
| ChangeSets.ParseText | copyrighthook/git_utilities.py:36-40 | parsing a string fails iff one of its non-empty lines has too few fields; on success the records are the tab-split non-empty lines of the text; the result is truthy iff the text has a non-empty line |
| ChangeSets.TruthyIffTouchesFiles | copyrighthook/git_utilities.py:33-34 | `__bool__` holds iff the change set touches some file |
| ChangeSets.ParsedTouchedFiles | copyrighthook/git_utilities.py:21-23 | after parsing, a path is touched iff some non-empty line names it in its last tab-separated field |
| ChangeSets.ParsedChangedFiles | copyrighthook/git_utilities.py:24-31 | after parsing, a path is changed iff some non-empty line whose type code is not "R100" names it in its last field |
| ChangeSets.ParsedMovedFiles | copyrighthook/git_utilities.py:21-28 | after parsing, the moved files are one (source, destination) per rename line, in line order |
| ChangeSets.ParseTextOfJoinedLines | copyrighthook/git_utilities.py:37-40 | parsing a string equals parsing the list of its lines |
| GitLog.NewCommit | copyrighthook/git_utilities.py:44-50 | a commit keeps its date; a missing or falsy change set becomes the empty one |
| GitLog.LeadingStamps | copyrighthook/git_utilities.py:105 | `takewhile`: the longest prefix of tab-free lines, stopped by a line with a tab |
| GitLog.BareCommits | copyrighthook/git_utilities.py:106-107 | each extra timestamp is a commit with the empty change set |
| GitLog.BlockCommits | copyrighthook/git_utilities.py:106-110 | one commit per timestamp with that timestamp; all but the last carry no changes; the last carries the change set when it is truthy |
| GitLog.BlockLines | copyrighthook/git_utilities.py:103 | the lines of a block are non-empty and hold no "\n"; a string is one of them iff it is a non-empty piece between "\n" |
| GitLog.BlockLinesAtNewline | copyrighthook/git_utilities.py:103 | cutting a block at its first "\n" gives the first line (dropped when empty) followed by the lines of the rest, in order |
| GitLog.BlockLinesOfPlain | copyrighthook/git_utilities.py:103 | a block without "\n" is one line, or no line when it is empty |
| GitLog.ParseBlock | copyrighthook/git_utilities.py:103-110 | one commit per leading timestamp, all but the last with no changes; the last carries the change set parsed from the remaining lines when it is truthy and the empty one otherwise (so a timestamp-only block gives only empty commits); no leading timestamp is `MissingTimestamp`; any other error is `BadRecord` carrying the parse error of the remaining lines |
| GitLog.CollectNonEmptyOk | copyrighthook/git_utilities.py:99-111 | the loop over blocks, skipping empty ones, succeeds iff every non-empty block parses |
| GitLog.CollectNonEmptyFirstFailure | copyrighthook/git_utilities.py:99-111 | a failing loop reports the error of the first non-empty block that fails, all earlier ones having parsed |
| GitLog.ParseBlocksOk | copyrighthook/git_utilities.py:99-111 | the block loop (`ParseBlocks`, the loop `CollectNonEmpty` run with `ParseBlock`) succeeds iff every non-empty block parses |
| GitLog.ParseBlocksFirstFailure | copyrighthook/git_utilities.py:99-111 | a failing block loop reports the first failing non-empty block's error |
| GitLog.ParseLog | copyrighthook/git_utilities.py:98-111 | an empty log gives no commits |
| GitLog.ParseLogOk | copyrighthook/git_utilities.py:98-111 | a log parses iff every non-empty block between blank lines parses |
| GitLog.ParseRenderedBlock | copyrighthook/git_utilities.py:103-110 | parsing the block git prints for a run of commits yields exactly those commits |
| GitLog.ParseRenderedBlocks | copyrighthook/git_utilities.py:99-111 | the block loop over printed blocks yields all their commits in order |
| GitLog.ParseLogOfRenderedLog | copyrighthook/git_utilities.py:96-111 | parsing a printed log (blocks separated by a blank line) yields its commits, newest first |
| History.ApplyMoves | copyrighthook/copyright.py:48-51 | renames add keys only at destinations, introduce no new dates, and leave every path that is not a destination as it was |
| History.MoveCopiesSource | copyrighthook/copyright.py:48-51 | a move whose indexed source no earlier move overwrote, and whose destination no later move overwrites, leaves the source's original entry on the destination |
| History.MoveFromUnindexed | copyrighthook/copyright.py:48-51 | a move whose source is not indexed writes nothing: a destination no other move targets keeps its entry, or stays absent |
| History.ApplyCommit | copyrighthook/copyright.py:47-53 | after a commit its changed files carry its date; keys stay within old keys, destinations and changed files; other entries are kept; any entry not on a changed file is an old date |
| History.CommitMoveCopiesSource | copyrighthook/copyright.py:47-53 | within a whole commit, a rename onto a file the commit does not change carries the source's entry, under the same conditions as `MoveCopiesSource` |
| History.CommitMoveFromUnindexed | copyrighthook/copyright.py:47-53 | within a whole commit, a rename from an unindexed source leaves an unchanged destination as it was |
| History.LastModified | copyrighthook/copyright.py:45-54 | the files the newest commit changes carry its date; `IndexedPathsWereTouched`, `IndexedDatesAreContentChanges` and `LastChangeWins` state the rest |
| History.IndexedPathsWereTouched | copyrighthook/copyright.py:45-54 | only paths some commit changed or renamed onto are indexed |
| History.IndexedDatesAreContentChanges | copyrighthook/copyright.py:45-54 | every indexed date is the date of a commit with content changes |
| History.LastChangeWins | copyrighthook/copyright.py:47-53 | a path carries the date of its newest content change when no newer commit touched it |
| History.PureRenameCarriesDate | copyrighthook/copyright.py:48-51 | an "R100" rename gives the destination the source's date, and nothing when the source is unindexed |
| History.EditedRenameTakesCommitDate | copyrighthook/copyright.py:48-53 | a rename with changes gives the destination the renaming commit's date |
| History.RenameHistory | tests/run_updater_test.py:146-165 | a file added then renamed keeps the addition's date for "R100" and takes the rename's date otherwise |
| YearsPattern.Compile | copyrighthook/years_pattern.py:19-24 | fails with the source's message exactly when "{years}" is absent; otherwise the template is prefix + "{years}" + suffix, split at the first occurrence |
| YearsPattern.CompileSplitsAtPlaceholder | copyrighthook/years_pattern.py:22-24 | compiling a template built around its first placeholder gives back both halves |
| YearsRegex.SpaceRun | copyrighthook/years_pattern.py:10-11 | greedy `\s*`: the run found is whitespace, stops before a non-space or the end, and no whitespace run from the same position is longer |
| YearsRegex.DigitRun | copyrighthook/years_pattern.py:9-10 | greedy `\d*`: the same for digit runs |
| YearsRegex.SpaceRunStopsAt | copyrighthook/years_pattern.py:10-11 | a whitespace run that stops before a non-space ends where the greedy run does |
| YearsRegex.DigitRunStopsAt | copyrighthook/years_pattern.py:9-10 | a digit run that stops before a non-digit ends where the greedy run does |
| YearsRegex.LastViableEnd | copyrighthook/years_pattern.py:9-11 | backtracking `\d+` settles on the longest run end after which `\s*` and the suffix can follow, and finds none only when no end is viable |
| YearsRegex.YearFromForced | copyrighthook/years_pattern.py:9-11 | in every parse of the shared tail `\s*\d+\s*suffix` the year starts where `\s*` stops and ends inside the digit run where the suffix can follow |
| YearsRegex.YearScan | copyrighthook/years_pattern.py:9-11 | the scanner's tail parse is a parse with the longest viable year, and none is returned only when no parse exists |
| YearsRegex.RangeHeadForced | copyrighthook/years_pattern.py:10-11 | in every range parse the `from` span and the hyphen are forced |
| YearsRegex.RangeHeadScan | copyrighthook/years_pattern.py:10-11 | the scanner returns the range head exactly when one exists, and it is the only one |
| YearsRegex.RangeAt | copyrighthook/years_pattern.py:10-11 | the scanner's range parse is the first one backtracking finds, and none is returned only when no range parse exists |
| YearsRegex.SingleAt | copyrighthook/years_pattern.py:9-11 | the scanner's single-year parse has the longest viable year, and none is returned only when no single-year parse exists |
| YearsPattern.MatchAt | copyrighthook/years_pattern.py:11 | at one start the range alternative is taken when it matches, then the single year; none exactly when nothing matches there |
| YearsPattern.SearchFrom | copyrighthook/years_pattern.py:28 | the first matching start at or after a position, with its first parse; none only when no later start matches |
| YearsPattern.RangeTreesAgree | copyrighthook/years_pattern.py:10-11 | any two range parses at one start agree on `from`, the hyphen and the start of `to` |
| YearsPattern.Search | copyrighthook/years_pattern.py:28 | `re.search`: the leftmost matching start, the range alternative first; none only when no start matches |
| YearsPattern.SearchResultUnique | copyrighthook/years_pattern.py:11 | any two search results agree on start, alternative and capture spans |
| YearsPattern.Extract | copyrighthook/years_pattern.py:27-36 | none exactly when no start matches, otherwise the groups captured by the search result |
| YearsPattern.ExtractRangeIffRangeBranch | copyrighthook/years_pattern.py:32-36 | `extract` returns a pair iff the range alternative matched at the leftmost start |
| YearsPattern.Replace | copyrighthook/years_pattern.py:39-41 | `replace` fails with "no copyright years in content" exactly when no start matches |
| YearsPattern.ReplaceAtSearchResult | copyrighthook/years_pattern.py:38-56 | `replace` rewrites the spans of the search result; the slicing itself (`Splice`, lines 44-56) is stated by the `ReplaceRange…` and `ReplaceSingle…` rows below |
| YearsPattern.ReplaceRangeWithPair | copyrighthook/years_pattern.py:44-50 | on a range with a pair only the `from` and `to` spans change: the text before, between and after is kept |
| YearsPattern.ReplaceRangeWithYear | copyrighthook/years_pattern.py:51 | on a range with one value the stretch from `from`'s start to `to`'s end becomes that value |
| YearsPattern.ReplaceRangeTo | copyrighthook/years_pattern.py:46-50 | keeping `from` and giving a new `to` replaces the `to` span alone |
| YearsPattern.ReplaceSingle | copyrighthook/years_pattern.py:53-56 | on a single year its span becomes "a-b" for a pair or the value, all other text kept |
| YearsPattern.ReplaceSingleTo | copyrighthook/years_pattern.py:54-56 | a single year given (itself, b) becomes "year-b" in place |
| YearsPattern.ReplaceWithExtractedIsIdentity | copyrighthook/years_pattern.py:27-56 | replacing with what `extract` returned leaves the text unchanged, for both shapes |
| HeaderUpdate.Message | copyrighthook/copyright.py:26-27 | each diagnostic's comment is the source's non-empty text ("expected year X, actual is Y" for a mismatch) |
| HeaderUpdate.Update | copyrighthook/copyright.py:198-227 | no diagnostic implies the content is returned unchanged; "no header" is reported iff required and nothing matched; no diagnostic iff (no match and not required) or the header is a single year equal to the last year or a proper range ending in it; its rewrites go through `Rewrite`, which is `replace` once a match is known (lines 215-227), and the scenario rows below state each one |
| HeaderUpdate.MissingHeader | copyrighthook/copyright.py:206-210 | without a match the content is returned unchanged, with the diagnostic iff required |
| HeaderUpdate.DegenerateRange | copyrighthook/copyright.py:213-217 | a range with equal years is always reported; it collapses to the current year if it names it, otherwise its `to` becomes the current year |
| HeaderUpdate.CurrentRange | copyrighthook/copyright.py:218-219 | a proper range ending in the last year is accepted unchanged, whatever its first year |
| HeaderUpdate.StaleRange | copyrighthook/copyright.py:220-222 | a proper range ending elsewhere is reported, and only its `to` is replaced by the current year |
| HeaderUpdate.CurrentSingleYear | copyrighthook/copyright.py:224-225 | a single year equal to the last year is accepted unchanged |
| HeaderUpdate.StaleSingleYear | copyrighthook/copyright.py:226-227 | any other single year is reported and becomes "year-current" in place |
| Updater.WithStaged | copyrighthook/copyright.py:104-106 | staged changes are inserted as the newest commit, dated now, only when there are any; the history follows unchanged |
| Updater.LastChange | copyrighthook/copyright.py:117-124 | the license file's date is the newest commit's; any other file's is its index entry, and none when it is unindexed |
| Updater.PlanFile | copyrighthook/copyright.py:116-138 | a file is skipped as unknown iff it has no last-change date, as too old iff that date is before the cutoff, and otherwise must carry that date's year in decimal |
| Updater.CheckFile | copyrighthook/copyright.py:130-158 | skipped files are not checked; content is written back iff there is a diagnostic and it is not a dry run |
| Updater.AfterWrite | copyrighthook/copyright.py:155-158 | a write replaces only the written file's text; without a write the disk is unchanged |
| Updater.CheckAll | copyrighthook/copyright.py:115-161 | one result per listed file; the disk keeps its files, and files not listed keep their text |
| Updater.CheckAllStep | copyrighthook/copyright.py:115-158 | the file at position i is judged on the text the first i iterations left on disk |
| Updater.FirstVisitReadsDisk | copyrighthook/copyright.py:140-145 | the first visit of a path judges the text it had before the loop |
| Updater.ChangedFilesWereWritten | copyrighthook/copyright.py:155-158 | a file whose text the loop changed holds what one of its iterations wrote to it |
| Updater.NoWriteKeepsDisk | copyrighthook/copyright.py:155-158 | a loop in which no iteration writes leaves the disk as it was |
| Updater.Run | copyrighthook/copyright.py:103-163 | with no commits and no staged changes nothing is checked and the result is false; otherwise one result per file; true iff some file has a diagnostic; unlisted files keep their text |
| Updater.StagedChangesDatedNow | copyrighthook/copyright.py:104-112 | every file with staged content changes is indexed with date now |
| Updater.UnstagedFileKeepsCommittedDate | copyrighthook/copyright.py:104-112 | a file the staged changes do not touch keeps its committed entry, or its absence |
| Updater.StagedFileExpectsCurrentYear | copyrighthook/copyright.py:117-138 | a staged non-license file must carry the current year, provided there is no cutoff or `now` is not before it |
| Updater.LicenseFileExpectsNewestYear | copyrighthook/copyright.py:111-138 | unless the newest commit is before the cutoff, the license file must carry that commit's year, which is now's year when there are staged changes |
| Updater.UntouchedFileIsSkipped | copyrighthook/copyright.py:117-133 | a file no loaded commit touched is skipped as unknown |
| Updater.CommittedFileExpectsLastChangeYear | copyrighthook/copyright.py:112-138 | a non-license file must carry the year of its newest content change, provided no newer commit changed it or renamed onto it and that change is not before the cutoff |
| Updater.OldFileIsSkipped | copyrighthook/copyright.py:134-136 | a last change before `ignore_commits_before` is skipped as too old: the TooOld ensures of `PlanFile`, applied to the replayed index |
| Updater.DryRunWritesNothing | copyrighthook/copyright.py:155-158 | a dry run writes no file and leaves the disk as it was |
| Updater.CheckedFileFollowsUpdate | copyrighthook/copyright.py:138-158 | a file is skipped per its plan, reported as not text when the text the loop reads is not UTF-8, and otherwise gets `update_file`'s diagnostic on that text against its expected and the current year, writes the updated content, and any diagnostic makes the run fail |
| Updater.FirstVisitFollowsDisk | copyrighthook/copyright.py:140-158 | the first time the run reaches a path, it judges the text the file had before the run |

## Left out

- Command line, exit codes and output are left out. This covers `argparse`, `main`, `FatalException` messages and verbose printing: I/O with no decision logic.
- Calls into git are left out. This covers `GitRepository.__init__`, `run_command`, `command_fails`, `staged_files` and the git calls of `commits` and `staged_changeset`. Their text output is an input, and `run_command`'s removal of a trailing newline is assumed done.
- The early return of `commits` when the repository has no HEAD is an empty history input.
- The `--since` argument is a git filter. Its effect is only which commits the history input holds.
- File system work is left out: `validate_and_resolve_files` and `find_config_path`. The disk is a map from path to decoded text, `None` for a file that is not valid UTF-8; the loop reads it and writes to it in order, so a path listed twice is read again after its rewrite. Every listed path is on the disk, as the validation guarantees.
- Newline translation is left out. `Path.read_text` and `write_text` (copyright.py:143, 157) use universal newlines: "\r\n" and "\r" are read as "\n", and text is written back with "\n". The disk holds the text after that translation, so the model does not show that fixing a header turns a CRLF file's line endings into LF.
- `config.py` is left out: YAML loading and datetime coercion.
- Datetimes are abstract. `datetime.fromisoformat` on log timestamps is not modelled, so parsed commits keep their dates as text. `.year` and `<` are supplied functions. `now` without tzinfo (a `ValueError`) is not modelled.
- Paths are compared as text. `PurePath` normalisation is not modelled.
- `\d` is ASCII digits only. Python also accepts other Unicode decimal digits; `\s` follows `str.isspace` in full.
- `re.escape` is implicit: the prefix and suffix are matched as literal text.
- HeaderUpdate.Update: general idempotence does not hold, and nothing is proved about repeated calls. For example, header 2024 with last year 2023 and current year 2024 becomes 2024-2024, which the next call reports as a degenerate range.
- A `ValueError` from `replace` inside `update_file` cannot happen: a match was just found. `HeaderUpdate.Rewrite` therefore requires a match instead of modelling that error.

=== FILE: change_set.dfy ===
/** `GitChangeSet` (copyrighthook/git_utilities.py): the records of a
    `git --name-status` listing, split on tabs, folded into the files whose
    content changed, the renames, and every destination path touched. */
module ChangeSets {

  import opened Results
  import opened Text

  /** A repository-relative path, kept as the text git printed. */
  type Path = string

  /** One status line split on tabs: type code, optional source path, destination. */
  type Record = seq<string>

  datatype ChangeSet = ChangeSet(
    items: seq<Record>,
    changedFiles: set<Path>,
    movedFiles: seq<(Path, Path)>,
    touchedFiles: set<Path>)

  /** The change set of no records (`GitChangeSet([])`). */
  const Empty: ChangeSet := ChangeSet([], {}, [], {})

  /** The code git uses for a rename without content change (100% similarity). */
  const PureRename: string := "R100"

  /** Why a record cannot be processed: it needs a type code and a
      destination, and a rename also needs a source. */
  datatype RecordError = NotEnoughFields(record: Record) | MissingRenameSource(record: Record)

  /** The type code starts with "R": a rename, possibly with changes. */
  predicate IsRename(r: Record)
    requires |r| > 0
  {
    |r[0]| > 0 && r[0][0] == 'R'
  }

  function Destination(r: Record): Path
    requires |r| > 0
  {
    r[|r| - 1]
  }

  predicate WellFormed(r: Record) {
    |r| >= 2 && (IsRename(r) ==> |r| >= 3)
  }

  /** The error the source raises on a malformed record. */
  function Problem(r: Record): (e: RecordError)
    requires !WellFormed(r)
    ensures e.record == r
  {
    if |r| < 2 then NotEnoughFields(r) else MissingRenameSource(r)
  }

  /** One iteration of the loop in `__post_init__`. */
  function AddRecord(cs: ChangeSet, r: Record): (next: Result<ChangeSet, RecordError>)
    ensures next.Ok? <==> WellFormed(r)
    ensures next.Err? ==> next.error == Problem(r)
    ensures next.Ok? ==> && next.value.items == cs.items + [r]
                         && next.value.touchedFiles == cs.touchedFiles + {Destination(r)}
                         && (r[0] != PureRename ==> next.value.changedFiles == cs.changedFiles + {Destination(r)})
                         && (r[0] == PureRename ==> next.value.changedFiles == cs.changedFiles)
                         && next.value.movedFiles == cs.movedFiles + (if IsRename(r) then [(r[1], Destination(r))] else [])
  {
    if !WellFormed(r) then Err(Problem(r))
    else
      var dst := Destination(r);
      var changed := if r[0] != PureRename then cs.changedFiles + {dst} else cs.changedFiles;
      if IsRename(r) then
        Ok(ChangeSet(cs.items + [r], changed, cs.movedFiles + [(r[1], dst)], cs.touchedFiles + {dst}))
      else
        Ok(ChangeSet(cs.items + [r], changed, cs.movedFiles, cs.touchedFiles + {dst}))
  }

  /** `GitChangeSet(items)`: the records processed in order; the first
      malformed one aborts construction. */
  function FromItems(items: seq<Record>): (r: Result<ChangeSet, RecordError>)
    ensures r.Ok? <==> forall i :: 0 <= i < |items| ==> WellFormed(items[i])
    ensures r.Ok? ==> r.value.items == items
    ensures r.Err? ==> exists i :: 0 <= i < |items| && !WellFormed(items[i]) && r.error == Problem(items[i])
                               && forall j :: 0 <= j < i ==> WellFormed(items[j])
    decreases |items|
  {
    if |items| == 0 then Ok(Empty)
    else
      var init := items[..|items| - 1];
      assert forall j :: 0 <= j < |init| ==> init[j] == items[j];
      match FromItems(init)
      case Err(e) => Err(e)
      case Ok(cs) => AddRecord(cs, items[|items| - 1])
  }

  /** `__bool__`: a change set is truthy when it holds any record. */
  predicate Truthy(cs: ChangeSet) {
    |cs.items| > 0
  }

  /** The renames of `items`, in record order: the intended `movedFiles`. */
  function Renames(items: seq<Record>): seq<(Path, Path)>
    requires forall i :: 0 <= i < |items| ==> WellFormed(items[i])
    decreases |items|
  {
    if |items| == 0 then []
    else
      var r := items[0];
      assert WellFormed(r);
      assert forall j :: 0 <= j < |items| - 1 ==> items[1..][j] == items[j + 1];
      (if IsRename(r) then [(r[1], Destination(r))] else []) + Renames(items[1..])
  }

  lemma {:induction false} RenamesAppend(items: seq<Record>, r: Record)
    requires forall i :: 0 <= i < |items| ==> WellFormed(items[i])
    requires WellFormed(r)
    ensures Renames(items + [r]) == Renames(items) + (if IsRename(r) then [(r[1], Destination(r))] else [])
    decreases |items|
  {
    if |items| == 0 {
      assert items + [r] == [r];
    } else {
      var head := if IsRename(items[0]) then [(items[0][1], Destination(items[0]))] else [];
      assert (items + [r])[0] == items[0];
      assert (items + [r])[1..] == items[1..] + [r];
      RenamesAppend(items[1..], r);
      assert Renames(items + [r]) == head + Renames(items[1..] + [r]);
      assert Renames(items) == head + Renames(items[1..]);
    }
  }

  /** Every destination, and nothing else, is a touched file. */
  lemma {:induction false} TouchedFilesAreDestinations(items: seq<Record>)
    requires FromItems(items).Ok?
    ensures forall p :: p in FromItems(items).value.touchedFiles <==>
              exists i :: 0 <= i < |items| && Destination(items[i]) == p
    decreases |items|
  {
    if |items| > 0 {
      var init := items[..|items| - 1];
      assert forall j :: 0 <= j < |init| ==> init[j] == items[j];
      TouchedFilesAreDestinations(init);
    }
  }

  /** A path is a changed file exactly when some record other than a pure
      rename ("R100") has it as destination. */
  lemma {:induction false} ChangedFilesAreNonPureDestinations(items: seq<Record>)
    requires FromItems(items).Ok?
    ensures forall p :: p in FromItems(items).value.changedFiles <==>
              exists i :: 0 <= i < |items| && Destination(items[i]) == p && items[i][0] != PureRename
    decreases |items|
  {
    if |items| > 0 {
      var init := items[..|items| - 1];
      assert forall j :: 0 <= j < |init| ==> init[j] == items[j];
      ChangedFilesAreNonPureDestinations(init);
    }
  }

  lemma ChangedFilesAreTouched(items: seq<Record>)
    requires FromItems(items).Ok?
    ensures FromItems(items).value.changedFiles <= FromItems(items).value.touchedFiles
  {
    TouchedFilesAreDestinations(items);
    ChangedFilesAreNonPureDestinations(items);
  }

  /** `movedFiles` holds one (source, destination) pair per rename record, in
      record order, and nothing for other records. */
  lemma {:induction false} MovedFilesAreRenames(items: seq<Record>)
    requires FromItems(items).Ok?
    ensures FromItems(items).value.movedFiles == Renames(items)
    decreases |items|
  {
    if |items| > 0 {
      var init := items[..|items| - 1];
      assert forall j :: 0 <= j < |init| ==> init[j] == items[j];
      MovedFilesAreRenames(init);
      RenamesAppend(init, items[|items| - 1]);
      assert init + [items[|items| - 1]] == items;
    }
  }

  /** What one record contributes, stated per record kind. */
  lemma RecordContribution(items: seq<Record>, i: nat)
    requires FromItems(items).Ok? && i < |items|
    ensures WellFormed(items[i])
    ensures Destination(items[i]) in FromItems(items).value.touchedFiles
    ensures items[i][0] != PureRename ==> Destination(items[i]) in FromItems(items).value.changedFiles
    ensures IsRename(items[i]) ==> (items[i][1], Destination(items[i])) in FromItems(items).value.movedFiles
  {
    var cs := FromItems(items).value;
    var r := items[i];
    assert WellFormed(r);
    TouchedFilesAreDestinations(items);
    assert Destination(r) in cs.touchedFiles;
    ChangedFilesAreNonPureDestinations(items);
    assert r[0] != PureRename ==> Destination(r) in cs.changedFiles;
    if IsRename(r) {
      MovedFilesAreRenames(items);
      RenameListed(items, i);
    }
  }

  lemma {:induction false} RenameListed(items: seq<Record>, i: nat)
    requires forall j :: 0 <= j < |items| ==> WellFormed(items[j])
    requires i < |items| && WellFormed(items[i]) && IsRename(items[i])
    ensures (items[i][1], Destination(items[i])) in Renames(items)
    decreases |items|
  {
    if i > 0 {
      RenameListed(items[1..], i - 1);
    }
  }

  /** A rename code other than "R100" makes the destination both moved and changed. */
  lemma {:induction false} RenameWithChangesIsChanged(items: seq<Record>)
    requires FromItems(items).Ok?
    ensures forall i :: 0 <= i < |items| && IsRename(items[i]) && items[i][0] != PureRename ==>
              && Destination(items[i]) in FromItems(items).value.changedFiles
              && (items[i][1], Destination(items[i])) in FromItems(items).value.movedFiles
  {
    forall i | 0 <= i < |items| && IsRename(items[i]) && items[i][0] != PureRename
      ensures Destination(items[i]) in FromItems(items).value.changedFiles
      ensures (items[i][1], Destination(items[i])) in FromItems(items).value.movedFiles
    {
      RecordContribution(items, i);
    }
  }

  /** The records of a listing: every non-empty line, in order, cut at its tabs. */
  function Records(lines: seq<string>): (items: seq<Record>)
    ensures |items| == |NonEmpty(lines)|
    ensures forall i :: 0 <= i < |items| ==>
              && Join(items[i], "\t") == NonEmpty(lines)[i]
              && forall j :: 0 <= j < |items[i]| ==> !Contains(items[i][j], "\t")
  {
    var kept := NonEmpty(lines);
    seq(|kept|, i requires 0 <= i < |kept| => Split(kept[i], "\t"))
  }

  /** `GitChangeSet.parse` on a list of lines: it fails exactly when some
      non-empty line has too few tab-separated fields, and the change set is
      falsy exactly when every line is empty. */
  function Parse(lines: seq<string>): (r: Result<ChangeSet, RecordError>)
    ensures r.Ok? <==> forall line :: line in lines && line != "" ==> WellFormed(Split(line, "\t"))
    ensures r.Ok? ==> (Truthy(r.value) <==> exists i :: 0 <= i < |lines| && lines[i] != "")
    ensures r.Ok? ==> r.value.items == Records(lines)
  {
    var kept := NonEmpty(lines);
    var items := Records(lines);
    NonEmptyMembers(lines);
    assert (forall i :: 0 <= i < |items| ==> WellFormed(items[i]))
           <==> (forall line :: line in lines && line != "" ==> WellFormed(Split(line, "\t"))) by {
      assert forall i :: 0 <= i < |items| ==> items[i] == Split(kept[i], "\t");
      assert forall line :: line in lines && line != "" ==> exists i :: 0 <= i < |kept| && kept[i] == line;
    }
    FromItems(items)
  }

  /** `GitChangeSet.parse` on a string: its lines first. */
  function ParseText(text: string): (r: Result<ChangeSet, RecordError>)
    ensures r.Ok? <==> forall line :: line in Lines(text) ==> WellFormed(Split(line, "\t"))
    ensures r.Ok? ==> (Truthy(r.value) <==> Lines(text) != [])
    ensures r.Ok? ==> r.value.items == Records(Lines(text))
  {
    Parse(Lines(text))
  }

  /** `__bool__` on a constructed change set: it is truthy exactly when it
      touches some file. */
  lemma TruthyIffTouchesFiles(items: seq<Record>)
    requires FromItems(items).Ok?
    ensures Truthy(FromItems(items).value) <==> FromItems(items).value.touchedFiles != {}
  {
    TouchedFilesAreDestinations(items);
    if |items| > 0 {
      assert Destination(items[0]) in FromItems(items).value.touchedFiles;
    }
  }

  /** The last tab-separated field of a line: the path a status line names. */
  function LineDestination(line: string): Path {
    Destination(Split(line, "\t"))
  }

  /** Every record is the tab split of some non-empty line. */
  lemma RecordHasLine(lines: seq<string>, i: nat)
    requires i < |Records(lines)|
    ensures exists j :: 0 <= j < |lines| && lines[j] != "" && Records(lines)[i] == Split(lines[j], "\t")
  {
    var kept := NonEmpty(lines);
    NonEmptyMembers(lines);
    assert kept[i] in kept;
    var j :| 0 <= j < |lines| && lines[j] == kept[i];
    assert Records(lines)[i] == Split(lines[j], "\t");
  }

  /** Every non-empty line gives a record: its tab split. */
  lemma LineHasRecord(lines: seq<string>, j: nat)
    requires j < |lines| && lines[j] != ""
    ensures exists i :: 0 <= i < |Records(lines)| && Records(lines)[i] == Split(lines[j], "\t")
  {
    var kept := NonEmpty(lines);
    NonEmptyMembers(lines);
    assert lines[j] in lines;
    var i :| 0 <= i < |kept| && kept[i] == lines[j];
    assert Records(lines)[i] == Split(lines[j], "\t");
  }

  /** A path is touched by a parsed change set iff some non-empty line names
      it in its last field. */
  lemma ParsedTouchedFiles(lines: seq<string>)
    requires Parse(lines).Ok?
    ensures forall p :: p in Parse(lines).value.touchedFiles <==>
              exists j :: 0 <= j < |lines| && lines[j] != "" && LineDestination(lines[j]) == p
  {
    var items := Records(lines);
    var cs := Parse(lines).value;
    assert Parse(lines) == FromItems(items);
    TouchedFilesAreDestinations(items);
    forall p
      ensures p in cs.touchedFiles <==> exists j :: 0 <= j < |lines| && lines[j] != "" && LineDestination(lines[j]) == p
    {
      if p in cs.touchedFiles {
        var i :| 0 <= i < |items| && Destination(items[i]) == p;
        RecordHasLine(lines, i);
        var j :| 0 <= j < |lines| && lines[j] != "" && items[i] == Split(lines[j], "\t");
        assert LineDestination(lines[j]) == p;
      }
      if exists j :: 0 <= j < |lines| && lines[j] != "" && LineDestination(lines[j]) == p {
        var j :| 0 <= j < |lines| && lines[j] != "" && LineDestination(lines[j]) == p;
        LineHasRecord(lines, j);
        var i :| 0 <= i < |items| && items[i] == Split(lines[j], "\t");
        assert Destination(items[i]) == p;
      }
    }
  }

  /** A path is changed by a parsed change set iff some non-empty line whose
      code is not "R100" names it in its last field. */
  lemma ParsedChangedFiles(lines: seq<string>)
    requires Parse(lines).Ok?
    ensures forall p :: p in Parse(lines).value.changedFiles <==>
              exists j :: && 0 <= j < |lines| && lines[j] != "" && LineDestination(lines[j]) == p
                          && Split(lines[j], "\t")[0] != PureRename
  {
    var items := Records(lines);
    var cs := Parse(lines).value;
    assert Parse(lines) == FromItems(items);
    ChangedFilesAreNonPureDestinations(items);
    forall p
      ensures p in cs.changedFiles <==>
              exists j :: && 0 <= j < |lines| && lines[j] != "" && LineDestination(lines[j]) == p
                          && Split(lines[j], "\t")[0] != PureRename
    {
      if p in cs.changedFiles {
        var i :| 0 <= i < |items| && Destination(items[i]) == p && items[i][0] != PureRename;
        RecordHasLine(lines, i);
        var j :| 0 <= j < |lines| && lines[j] != "" && items[i] == Split(lines[j], "\t");
        assert LineDestination(lines[j]) == p;
      }
      if exists j :: && 0 <= j < |lines| && lines[j] != "" && LineDestination(lines[j]) == p
                     && Split(lines[j], "\t")[0] != PureRename {
        var j :| && 0 <= j < |lines| && lines[j] != "" && LineDestination(lines[j]) == p
                 && Split(lines[j], "\t")[0] != PureRename;
        LineHasRecord(lines, j);
        var i :| 0 <= i < |items| && items[i] == Split(lines[j], "\t");
        assert Destination(items[i]) == p && items[i][0] != PureRename;
      }
    }
  }

  /** The moves of a parsed change set are the renames among its records, in
      line order. */
  lemma ParsedMovedFiles(lines: seq<string>)
    requires Parse(lines).Ok?
    ensures Parse(lines).value.movedFiles == Renames(Records(lines))
  {
    assert Parse(lines) == FromItems(Records(lines));
    MovedFilesAreRenames(Records(lines));
  }

  /** Parsing text equals parsing its lines when the lines were joined by "\n". */
  lemma ParseTextOfJoinedLines(lines: seq<string>)
    requires forall i :: 0 <= i < |lines| ==> NoLineBreak(lines[i])
    ensures ParseText(Join(lines, "\n")) == Parse(lines)
  {
    if |lines| > 0 {
      BreakPiecesJoin(lines);
    }
    NonEmptyKeepsNonEmpty(NonEmpty(lines));
  }
}

=== FILE: git_log.dfy ===
/** `GitCommitInfo` and the parsing half of `GitRepository.commits`
    (copyrighthook/git_utilities.py): the text printed by
    `git log --name-status --pretty=format:%aI` becomes a list of commits,
    newest first. Author dates stay the ISO text git printed; converting it
    with `datetime.fromisoformat` is not part of this model. */
module GitLog {

  import opened Results
  import opened Text
  import opened ChangeSets

  datatype Commit<T> = Commit(authorDate: T, changes: ChangeSet)

  /** The `GitCommitInfo` constructor: a missing or falsy change set is
      replaced by the empty one. */
  function NewCommit<T>(date: T, changes: Option<ChangeSet>): (c: Commit<T>)
    ensures c.authorDate == date
    ensures changes.Some? && Truthy(changes.value) ==> c.changes == changes.value
    ensures !(changes.Some? && Truthy(changes.value)) ==> c.changes == Empty
  {
    if changes.Some? && Truthy(changes.value) then Commit(date, changes.value) else Commit(date, Empty)
  }

  datatype LogError =
    | MissingTimestamp(block: string)   // a block with no leading tab-free line: no last timestamp to index
    | BadRecord(error: RecordError)

  /** The leading lines without a tab: the timestamps of a block. */
  function LeadingStamps(lines: seq<string>): (stamps: seq<string>)
    ensures |stamps| <= |lines| && stamps == lines[..|stamps|]
    ensures forall i :: 0 <= i < |stamps| ==> '\t' !in stamps[i]
    ensures |stamps| < |lines| ==> '\t' in lines[|stamps|]
    decreases |lines|
  {
    if |lines| == 0 || '\t' in lines[0] then []
    else [lines[0]] + LeadingStamps(lines[1..])
  }

  /** The non-empty lines of a block, cut at "\n" only. */
  function BlockLines(block: string): (lines: seq<string>)
    ensures forall i :: 0 <= i < |lines| ==> lines[i] != "" && !Contains(lines[i], "\n")
    ensures forall x :: x in lines <==> x in Split(block, "\n") && x != ""
  {
    var pieces := Split(block, "\n");
    NonEmptyMembers(pieces);
    assert forall x | x in pieces :: !Contains(x, "\n");
    NonEmpty(pieces)
  }

  /** A "\n" cuts the block: the first line, when not empty, followed by the
      lines of the rest. */
  lemma BlockLinesAtNewline(a: string, b: string)
    requires '\n' !in a
    ensures BlockLines(a + "\n" + b) == (if a == "" then [] else [a]) + BlockLines(b)
  {
    PlainIsClean(a);
    SplitAtFirst(a, "\n", b);
    NonEmptyAppend([a], Split(b, "\n"));
    assert NonEmpty([a]) == if a == "" then [] else [a];
  }

  /** A block without "\n" is one line, or none when it is empty. Together
      with `BlockLinesAtNewline` this determines `BlockLines` completely. */
  lemma BlockLinesOfPlain(x: string)
    requires '\n' !in x
    ensures BlockLines(x) == if x == "" then [] else [x]
  {
    assert !Contains(x, "\n") by {
      forall k: nat | k < |x|
        ensures !OccursAt(x, k, "\n")
      {
        assert x[k] != '\n';
      }
    }
    SplitOfPlain(x, "\n");
    assert NonEmpty([x]) == if x == "" then [] else [x];
  }

  /** Commits that carry a timestamp and no file changes. */
  function BareCommits(stamps: seq<string>): (cs: seq<Commit<string>>)
    ensures |cs| == |stamps|
    ensures forall i :: 0 <= i < |cs| ==> cs[i] == Commit(stamps[i], Empty)
  {
    seq(|stamps|, i requires 0 <= i < |stamps| => NewCommit(stamps[i], None))
  }

  /** The commits of one block: every timestamp but the last is a commit
      without changes; the last one owns the change set. */
  function BlockCommits(stamps: seq<string>, cs: ChangeSet): (r: seq<Commit<string>>)
    requires |stamps| > 0
    ensures |r| == |stamps|
    ensures forall i :: 0 <= i < |stamps| ==> r[i].authorDate == stamps[i]
    ensures forall i :: 0 <= i < |stamps| - 1 ==> r[i].changes == Empty
    ensures r[|stamps| - 1].changes == if Truthy(cs) then cs else Empty
  {
    BareCommits(stamps[..|stamps| - 1]) + [NewCommit(stamps[|stamps| - 1], Some(cs))]
  }

  /** One iteration of the block loop: every leading timestamp but the last is
      a commit without changes; the last one owns the remaining lines. */
  function ParseBlock(block: string): (r: Result<seq<Commit<string>>, LogError>)
    ensures var stamps := LeadingStamps(BlockLines(block));
            r.Ok? ==> && |r.value| == |stamps| > 0
                      && (forall i :: 0 <= i < |stamps| ==> r.value[i].authorDate == stamps[i])
                      && (forall i :: 0 <= i < |stamps| - 1 ==> r.value[i].changes == Empty)
    ensures r.Err? && r.error.MissingTimestamp? <==> LeadingStamps(BlockLines(block)) == []
    ensures var lines := BlockLines(block);
            var n := |LeadingStamps(lines)|;
            r.Ok? <==> n > 0 && Parse(lines[n..]).Ok?
    ensures var lines := BlockLines(block);
            var n := |LeadingStamps(lines)|;
            r.Ok? ==> r.value[n - 1].changes == if Truthy(Parse(lines[n..]).value) then Parse(lines[n..]).value else Empty
    ensures var lines := BlockLines(block);
            var n := |LeadingStamps(lines)|;
            r.Err? && !r.error.MissingTimestamp? ==> n > 0 && r.error == BadRecord(Parse(lines[n..]).error)
  {
    var lines := BlockLines(block);
    var stamps := LeadingStamps(lines);
    if |stamps| == 0 then Err(MissingTimestamp(block))
    else
      match Parse(lines[|stamps|..])
      case Err(e) => Err(BadRecord(e))
      case Ok(cs) => Ok(BlockCommits(stamps, cs))
  }

  /** A loop over the non-empty items of a listing: `parse` runs on each in
      order, the results are concatenated and the first failure aborts. */
  function CollectNonEmpty<X, E>(items: seq<string>, parse: string -> Result<seq<X>, E>): Result<seq<X>, E>
    decreases |items|
  {
    if |items| == 0 then Ok([])
    else if items[0] == "" then CollectNonEmpty(items[1..], parse)
    else
      match parse(items[0])
      case Err(e) => Err(e)
      case Ok(first) =>
        match CollectNonEmpty(items[1..], parse)
        case Err(e) => Err(e)
        case Ok(rest) => Ok(first + rest)
  }

  /** The loop succeeds exactly when every non-empty item parses. */
  lemma {:induction false} CollectNonEmptyOk<X, E>(items: seq<string>, parse: string -> Result<seq<X>, E>)
    ensures CollectNonEmpty(items, parse).Ok? <==> forall i :: 0 <= i < |items| && items[i] != "" ==> parse(items[i]).Ok?
    decreases |items|
  {
    if |items| > 0 {
      var tail := items[1..];
      CollectNonEmptyOk(tail, parse);
      assert forall i :: 0 < i < |items| ==> items[i] == tail[i - 1];
    }
  }

  /** A failing loop reports the error of the first non-empty item that does
      not parse. */
  lemma {:induction false} CollectNonEmptyFirstFailure<X, E>(items: seq<string>, parse: string -> Result<seq<X>, E>)
    requires CollectNonEmpty(items, parse).Err?
    ensures exists i :: && 0 <= i < |items| && items[i] != "" && parse(items[i]) == Err(CollectNonEmpty(items, parse).error)
                        && forall j :: 0 <= j < i && items[j] != "" ==> parse(items[j]).Ok?
    decreases |items|
  {
    var tail := items[1..];
    var e := CollectNonEmpty(items, parse).error;
    if items[0] != "" && parse(items[0]).Err? {
      assert parse(items[0]) == Err(e);
    } else {
      CollectNonEmptyFirstFailure(tail, parse);
      var k :| && 0 <= k < |tail| && tail[k] != "" && parse(tail[k]) == Err(CollectNonEmpty(tail, parse).error)
               && forall j :: 0 <= j < k && tail[j] != "" ==> parse(tail[j]).Ok?;
      assert items[k + 1] == tail[k];
      assert forall j :: 0 < j < k + 1 ==> items[j] == tail[j - 1];
    }
  }

  /** The block loop: empty blocks are skipped, the first failing block aborts. */
  function ParseBlocks(blocks: seq<string>): Result<seq<Commit<string>>, LogError> {
    CollectNonEmpty(blocks, ParseBlock)
  }

  /** The block loop succeeds exactly when every non-empty block parses. */
  lemma ParseBlocksOk(blocks: seq<string>)
    ensures ParseBlocks(blocks).Ok? <==> forall i :: 0 <= i < |blocks| && blocks[i] != "" ==> ParseBlock(blocks[i]).Ok?
  {
    CollectNonEmptyOk(blocks, ParseBlock);
  }

  /** A failing block loop reports the error of the first non-empty block that
      does not parse. */
  lemma ParseBlocksFirstFailure(blocks: seq<string>)
    requires ParseBlocks(blocks).Err?
    ensures exists i :: && 0 <= i < |blocks| && blocks[i] != "" && ParseBlock(blocks[i]) == Err(ParseBlocks(blocks).error)
                        && forall j :: 0 <= j < i && blocks[j] != "" ==> ParseBlock(blocks[j]).Ok?
  {
    CollectNonEmptyFirstFailure(blocks, ParseBlock);
  }

  /** The commits of a log, newest first (lines 98-111 of `commits`). */
  function ParseLog(log: string): (r: Result<seq<Commit<string>>, LogError>)
    ensures log == "" ==> r == Ok([])
  {
    if log == "" then
      assert Split(log, "\n\n") == [""];
      Ok([])
    else ParseBlocks(Split(log, "\n\n"))
  }

  /** A log parses exactly when every non-empty block between blank lines does. */
  lemma ParseLogOk(log: string)
    ensures ParseLog(log).Ok? <==> forall b :: b in Split(log, "\n\n") && b != "" ==> ParseBlock(b).Ok?
  {
    if log == "" {
      assert Split(log, "\n\n") == [""];
    } else {
      ParseBlocksOk(Split(log, "\n\n"));
    }
  }

  /** One group of log output: timestamps of consecutive commits, then the
      status lines of the last of them. */
  datatype Entry = Entry(stamps: seq<string>, changeLines: seq<string>)

  function RenderBlock(e: Entry): string {
    Join(e.stamps + e.changeLines, "\n")
  }

  function RenderBlocks(entries: seq<Entry>): (blocks: seq<string>)
    ensures |blocks| == |entries|
    ensures forall i :: 0 <= i < |entries| ==> blocks[i] == RenderBlock(entries[i])
  {
    seq(|entries|, i requires 0 <= i < |entries| => RenderBlock(entries[i]))
  }

  /** The log text git prints for `entries`: blocks separated by a blank line. */
  function RenderLog(entries: seq<Entry>): string {
    Join(RenderBlocks(entries), "\n\n")
  }

  ghost predicate PlainLine(x: string) {
    x != "" && '\n' !in x
  }

  /** An entry git can print: tab-free timestamps, then well-formed status lines. */
  ghost predicate Printable(e: Entry) {
    && |e.stamps| > 0
    && (forall i :: 0 <= i < |e.stamps| ==> PlainLine(e.stamps[i]) && '\t' !in e.stamps[i])
    && (forall i :: 0 <= i < |e.changeLines| ==> PlainLine(e.changeLines[i]) && '\t' in e.changeLines[i])
    && Parse(e.changeLines).Ok?
  }

  /** The commits an entry stands for. */
  function EntryCommits(e: Entry): seq<Commit<string>>
    requires |e.stamps| > 0 && Parse(e.changeLines).Ok?
  {
    BlockCommits(e.stamps, Parse(e.changeLines).value)
  }

  function AllCommits(entries: seq<Entry>): seq<Commit<string>>
    requires forall i :: 0 <= i < |entries| ==> Printable(entries[i])
    decreases |entries|
  {
    if |entries| == 0 then []
    else
      assert Printable(entries[0]);
      assert forall i :: 0 <= i < |entries| - 1 ==> entries[1..][i] == entries[i + 1];
      EntryCommits(entries[0]) + AllCommits(entries[1..])
  }

  lemma PlainIsClean(x: string)
    requires '\n' !in x
    ensures CleanPiece(x, "\n")
  {
    forall k: nat | k < |x|
      ensures !OccursAt(x + "\n", k, "\n")
    {
      assert (x + "\n")[k] == x[k];
    }
  }

  lemma {:induction false} LeadingStampsOfEntry(stamps: seq<string>, changeLines: seq<string>)
    requires forall i :: 0 <= i < |stamps| ==> '\t' !in stamps[i]
    requires |changeLines| > 0 ==> '\t' in changeLines[0]
    ensures LeadingStamps(stamps + changeLines) == stamps
    decreases |stamps|
  {
    if |stamps| == 0 {
      assert stamps + changeLines == changeLines;
    } else {
      assert (stamps + changeLines)[1..] == stamps[1..] + changeLines;
      LeadingStampsOfEntry(stamps[1..], changeLines);
      assert [stamps[0]] + stamps[1..] == stamps;
    }
  }

  lemma EntryLinesArePlain(e: Entry)
    requires Printable(e)
    ensures forall i :: 0 <= i < |e.stamps + e.changeLines| ==> PlainLine((e.stamps + e.changeLines)[i])
  {
    var lines := e.stamps + e.changeLines;
    forall i | 0 <= i < |lines|
      ensures PlainLine(lines[i])
    {
      if i < |e.stamps| {
        assert PlainLine(e.stamps[i]);
      } else {
        assert PlainLine(e.changeLines[i - |e.stamps|]);
      }
    }
  }

  lemma BlockLinesOfRendered(e: Entry)
    requires Printable(e)
    ensures BlockLines(RenderBlock(e)) == e.stamps + e.changeLines
  {
    var lines := e.stamps + e.changeLines;
    EntryLinesArePlain(e);
    forall i | 0 <= i < |lines|
      ensures CleanPiece(lines[i], "\n")
    {
      assert PlainLine(lines[i]);
      PlainIsClean(lines[i]);
    }
    SplitJoin(lines, "\n");
    NonEmptyKeepsNonEmpty(lines);
  }

  /** Parsing the block of one printable entry yields exactly its commits. */
  lemma ParseRenderedBlock(e: Entry)
    requires Printable(e)
    ensures ParseBlock(RenderBlock(e)) == Ok(EntryCommits(e))
  {
    var lines := e.stamps + e.changeLines;
    BlockLinesOfRendered(e);
    LeadingStampsOfEntry(e.stamps, e.changeLines);
    assert LeadingStamps(BlockLines(RenderBlock(e))) == e.stamps;
    assert lines[|e.stamps|..] == e.changeLines;
  }

  /** A block of plain lines neither ends with "\n" nor holds "\n\n". */
  lemma {:induction false} JoinedLinesShape(lines: seq<string>)
    requires |lines| > 0
    requires forall i :: 0 <= i < |lines| ==> PlainLine(lines[i])
    ensures var x := Join(lines, "\n");
            && |x| > 0 && x[0] != '\n' && x[|x| - 1] != '\n'
            && forall k :: 0 <= k < |x| - 1 && x[k] == '\n' ==> x[k + 1] != '\n'
    decreases |lines|
  {
    assert PlainLine(lines[0]);
    if |lines| > 1 {
      var rest := Join(lines[1..], "\n");
      JoinedLinesShape(lines[1..]);
      var x := Join(lines, "\n");
      var l0 := lines[0];
      assert x == l0 + "\n" + rest;
      forall k | 0 <= k < |x| - 1 && x[k] == '\n'
        ensures x[k + 1] != '\n'
      {
        if k < |l0| {
        } else if k == |l0| {
          assert x[k + 1] == rest[0];
        } else {
          assert x[k] == rest[k - |l0| - 1];
          assert x[k + 1] == rest[k - |l0|];
        }
      }
      assert x[|x| - 1] == rest[|rest| - 1];
    }
  }

  lemma NoBlankLineIsClean(x: string)
    requires |x| > 0 && x[|x| - 1] != '\n'
    requires forall k :: 0 <= k < |x| - 1 && x[k] == '\n' ==> x[k + 1] != '\n'
    ensures CleanPiece(x, "\n\n")
  {
    forall k: nat | k < |x|
      ensures !OccursAt(x + "\n\n", k, "\n\n")
    {
      var y := x + "\n\n";
      assert y[k] == x[k];
      if k + 1 < |x| {
        assert y[k + 1] == x[k + 1];
      }
      assert y[k..k + 2] == [y[k], y[k + 1]];
    }
  }

  lemma RenderedBlockIsClean(e: Entry)
    requires Printable(e)
    ensures CleanPiece(RenderBlock(e), "\n\n") && RenderBlock(e) != ""
  {
    EntryLinesArePlain(e);
    JoinedLinesShape(e.stamps + e.changeLines);
    NoBlankLineIsClean(RenderBlock(e));
  }

  lemma {:induction false} ParseRenderedBlocks(entries: seq<Entry>)
    requires forall i :: 0 <= i < |entries| ==> Printable(entries[i])
    ensures ParseBlocks(RenderBlocks(entries)) == Ok(AllCommits(entries))
    decreases |entries|
  {
    if |entries| > 0 {
      var blocks := RenderBlocks(entries);
      var e := entries[0];
      assert Printable(e);
      RenderedBlockIsClean(e);
      ParseRenderedBlock(e);
      assert forall i :: 0 <= i < |entries| - 1 ==> entries[1..][i] == entries[i + 1];
      ParseRenderedBlocks(entries[1..]);
      assert blocks[1..] == RenderBlocks(entries[1..]);
      assert blocks[0] == RenderBlock(e) && blocks[0] != "";
    }
  }

  /** Parsing the log git prints for a list of printable entries yields
      exactly the commits those entries stand for, in order. */
  lemma ParseLogOfRenderedLog(entries: seq<Entry>)
    requires forall i :: 0 <= i < |entries| ==> Printable(entries[i])
    ensures ParseLog(RenderLog(entries)) == Ok(AllCommits(entries))
  {
    var blocks := RenderBlocks(entries);
    if |entries| == 0 {
      assert RenderLog(entries) == "";
      assert Split("", "\n\n") == [""];
    } else {
      forall i | 0 <= i < |blocks|
        ensures CleanPiece(blocks[i], "\n\n")
      {
        RenderedBlockIsClean(entries[i]);
      }
      SplitJoin(blocks, "\n\n");
      ParseRenderedBlocks(entries);
    }
  }
}

=== FILE: header_update.dfy ===
/** `update_file` (copyrighthook/copyright.py): checks the years of a file's
    copyright header against the year of its last change and proposes the
    rewritten content. */
module HeaderUpdate {

  import opened Results
  import opened YearsRegex
  import opened YearsPattern

  const NoHeaderFoundMessage: string := "no copyright comment found"
  const RangeForOneYearMessage: string := "range syntax is used for a single year"

  /** Why a header is not acceptable. */
  datatype Diagnostic = NoHeaderFound | RangeForOneYear | YearMismatch(expected: string, actual: string)

  /** The comment the source returns for a diagnostic. */
  function Message(d: Diagnostic): (m: string)
    ensures |m| > 0
    ensures d.YearMismatch? ==> m == "expected year " + d.expected + ", actual is " + d.actual
    ensures d.NoHeaderFound? ==> m == NoHeaderFoundMessage
    ensures d.RangeForOneYear? ==> m == RangeForOneYearMessage
  {
    match d
    case NoHeaderFound => NoHeaderFoundMessage
    case RangeForOneYear => RangeForOneYearMessage
    case YearMismatch(e, a) => "expected year " + e + ", actual is " + a
  }

  /** `pattern.replace` where `extract` has already found the header, so it
      cannot fail. */
  function Rewrite(p: Pattern, content: string, v: Years): string
    requires Extract(p, content).Some?
  {
    Replace(p, content, v).value
  }

  /** The header is acceptable: a single year equal to the last change's year,
      or a proper range ending in it. */
  predicate HeaderCurrent(years: Years, lastYear: string) {
    match years
    case Year(y) => y == lastYear
    case YearRange(a, b) => a != b && b == lastYear
  }

  /** `update_file`: the diagnostic, if any, and the content to write back. */
  function Update(content: string, lastYear: string, p: Pattern, currentYear: string, required: bool)
    : (r: (Option<Diagnostic>, string))
    ensures r.0.None? ==> r.1 == content
    ensures r.0 == Some(NoHeaderFound) <==> required && Extract(p, content).None?
    ensures r.0.None? <==> (if Extract(p, content).None? then !required
                            else HeaderCurrent(Extract(p, content).value, lastYear))
  {
    match Extract(p, content)
    case None => (if required then Some(NoHeaderFound) else None, content)
    case Some(YearRange(a, b)) =>
      if a == b then
        if a == currentYear then (Some(RangeForOneYear), Rewrite(p, content, Year(currentYear)))
        else (Some(RangeForOneYear), Rewrite(p, content, YearRange(a, currentYear)))
      else if lastYear == b then (None, content)
      else (Some(YearMismatch(lastYear, b)), Rewrite(p, content, YearRange(a, currentYear)))
    case Some(Year(y)) =>
      if y == lastYear then (None, content)
      else (Some(YearMismatch(lastYear, y)), Rewrite(p, content, YearRange(y, currentYear)))
  }

  /** Without a header the content is returned unchanged, and only a required
      header is reported. */
  lemma MissingHeader(content: string, lastYear: string, p: Pattern, currentYear: string, required: bool)
    requires forall j :: 0 <= j <= |content| ==> !MatchesAt(content, p, j)
    ensures Update(content, lastYear, p, currentYear, required)
            == (if required then Some(NoHeaderFound) else None, content)
  {
  }

  /** A range whose two years are equal is always reported. It collapses to the
      current year when it names the current year; otherwise its `to` becomes
      the current year. */
  lemma DegenerateRange(content: string, lastYear: string, p: Pattern, currentYear: string, required: bool,
                        i: nat, t: RangeTree)
    requires IsSearchResult(content, p, RangeMatch(i, t))
    requires content[t.fromStart..t.fromEnd] == content[t.toStart..t.toEnd]
    ensures var y := content[t.fromStart..t.fromEnd];
            Update(content, lastYear, p, currentYear, required)
            == (Some(RangeForOneYear),
                if y == currentYear then content[..t.fromStart] + currentYear + content[t.toEnd..]
                else content[..t.toStart] + currentYear + content[t.toEnd..])
  {
    var y := content[t.fromStart..t.fromEnd];
    ReplaceAtSearchResult(p, content, RangeMatch(i, t), Year(currentYear));
    assert Extract(p, content) == Some(YearRange(y, y));
    if y == currentYear {
      assert Rewrite(p, content, Year(currentYear)) == content[..t.fromStart] + currentYear + content[t.toEnd..];
    } else {
      RangeToReplaced(p, content, i, t, currentYear);
    }
  }

  /** Rewriting a range to (its own first year, `y`) replaces the second year. */
  lemma RangeToReplaced(p: Pattern, content: string, i: nat, t: RangeTree, y: string)
    requires IsSearchResult(content, p, RangeMatch(i, t))
    ensures Extract(p, content) == Some(YearRange(content[t.fromStart..t.fromEnd], content[t.toStart..t.toEnd]))
    ensures Rewrite(p, content, YearRange(content[t.fromStart..t.fromEnd], y))
            == content[..t.toStart] + y + content[t.toEnd..]
  {
    ReplaceRangeTo(p, content, i, t, y);
  }

  /** A proper range ending in the last change's year is accepted as it is,
      whatever its first year. */
  lemma CurrentRange(content: string, lastYear: string, p: Pattern, currentYear: string, required: bool,
                     i: nat, t: RangeTree)
    requires IsSearchResult(content, p, RangeMatch(i, t))
    requires content[t.fromStart..t.fromEnd] != content[t.toStart..t.toEnd]
    requires content[t.toStart..t.toEnd] == lastYear
    ensures Update(content, lastYear, p, currentYear, required) == (None, content)
  {
    ReplaceAtSearchResult(p, content, RangeMatch(i, t), Year(currentYear));
  }

  /** A proper range ending in another year keeps its first year and has its
      second year, and only that, replaced by the current year. */
  lemma StaleRange(content: string, lastYear: string, p: Pattern, currentYear: string, required: bool,
                   i: nat, t: RangeTree)
    requires IsSearchResult(content, p, RangeMatch(i, t))
    requires content[t.fromStart..t.fromEnd] != content[t.toStart..t.toEnd]
    requires content[t.toStart..t.toEnd] != lastYear
    ensures Update(content, lastYear, p, currentYear, required)
            == (Some(YearMismatch(lastYear, content[t.toStart..t.toEnd])),
                content[..t.toStart] + currentYear + content[t.toEnd..])
  {
    RangeToReplaced(p, content, i, t, currentYear);
  }

  /** A single year equal to the last change's year is accepted. */
  lemma CurrentSingleYear(content: string, lastYear: string, p: Pattern, currentYear: string, required: bool,
                          i: nat, t: SingleTree)
    requires IsSearchResult(content, p, SingleMatch(i, t))
    requires content[t.yearStart..t.yearEnd] == lastYear
    ensures Update(content, lastYear, p, currentYear, required) == (None, content)
  {
    ReplaceAtSearchResult(p, content, SingleMatch(i, t), Year(currentYear));
  }

  /** Rewriting a single year to (it, `y`) writes the range "year-y" in its place. */
  lemma SingleToRange(p: Pattern, content: string, i: nat, t: SingleTree, y: string)
    requires IsSearchResult(content, p, SingleMatch(i, t))
    ensures Extract(p, content) == Some(Year(content[t.yearStart..t.yearEnd]))
    ensures Rewrite(p, content, YearRange(content[t.yearStart..t.yearEnd], y))
            == content[..t.yearStart] + content[t.yearStart..t.yearEnd] + "-" + y + content[t.yearEnd..]
  {
    ReplaceSingleTo(p, content, i, t, y);
  }

  /** Any other single year becomes the range from it to the current year. */
  lemma StaleSingleYear(content: string, lastYear: string, p: Pattern, currentYear: string, required: bool,
                        i: nat, t: SingleTree)
    requires IsSearchResult(content, p, SingleMatch(i, t))
    requires content[t.yearStart..t.yearEnd] != lastYear
    ensures var y := content[t.yearStart..t.yearEnd];
            Update(content, lastYear, p, currentYear, required)
            == (Some(YearMismatch(lastYear, y)), content[..t.yearStart] + y + "-" + currentYear + content[t.yearEnd..])
  {
    SingleToRange(p, content, i, t, currentYear);
  }
}

=== FILE: history.dfy ===
/** `compute_last_modified_dict` (copyrighthook/copyright.py): the commits,
    newest first, are replayed oldest to newest into an index from path to the
    author date of the last content change. Within one commit renames carry the
    source's entry over first, then every changed file takes the commit's date.
    The time type `T` stays abstract: replay only copies and stores dates. */
module History {

  import opened ChangeSets
  import opened GitLog

  /** The destinations of a list of moves. */
  function Destinations(moves: seq<(Path, Path)>): set<Path> {
    set k | 0 <= k < |moves| :: moves[k].1
  }

  /** The rename loop of one commit: each move, in order, copies the source's
      entry onto the destination when the source has one. */
  function ApplyMoves<T(==)>(index: map<Path, T>, moves: seq<(Path, Path)>): (r: map<Path, T>)
    ensures r.Keys <= index.Keys + Destinations(moves)
    ensures forall p :: p in index && p !in Destinations(moves) ==> p in r && r[p] == index[p]
    ensures r.Values <= index.Values
    decreases |moves|
  {
    if |moves| == 0 then index
    else
      var (src, dst) := moves[0];
      var next := if src in index then index[dst := index[src]] else index;
      assert Destinations(moves) == {dst} + Destinations(moves[1..]) by {
        forall p | p in Destinations(moves)
          ensures p in {dst} + Destinations(moves[1..])
        {
          var k :| 0 <= k < |moves| && moves[k].1 == p;
          if k > 0 {
            assert moves[1..][k - 1] == moves[k];
          }
        }
        forall p | p in Destinations(moves[1..])
          ensures p in Destinations(moves)
        {
          var k :| 0 <= k < |moves[1..]| && moves[1..][k].1 == p;
          assert moves[k + 1] == moves[1..][k];
        }
      }
      ApplyMoves(next, moves[1..])
  }

  /** A move whose source no earlier move overwrote, and whose destination no
      later move overwrites, leaves the source's original entry on the
      destination. */
  lemma {:induction false} MoveCopiesSource<T>(index: map<Path, T>, moves: seq<(Path, Path)>, k: nat)
    requires k < |moves| && moves[k].0 in index
    requires forall j :: 0 <= j < k ==> moves[j].1 != moves[k].0
    requires forall j :: k < j < |moves| ==> moves[j].1 != moves[k].1
    ensures var r := ApplyMoves(index, moves);
            moves[k].1 in r && r[moves[k].1] == index[moves[k].0]
    decreases k
  {
    var (src, dst) := moves[0];
    var next := if src in index then index[dst := index[src]] else index;
    assert ApplyMoves(index, moves) == ApplyMoves(next, moves[1..]);
    if k == 0 {
      assert moves[k].1 !in Destinations(moves[1..]);
    } else {
      forall j | 0 <= j < k - 1
        ensures moves[1..][j].1 != moves[1..][k - 1].0
      {
        assert moves[1..][j] == moves[j + 1];
      }
      forall j | k - 1 < j < |moves[1..]|
        ensures moves[1..][j].1 != moves[1..][k - 1].1
      {
        assert moves[1..][j] == moves[j + 1];
      }
      assert moves[1..][k - 1] == moves[k];
      MoveCopiesSource(next, moves[1..], k - 1);
    }
  }

  /** A move whose source has no entry when it runs writes nothing: when no
      other move targets its destination, the destination keeps its original
      entry, or stays absent. */
  lemma {:induction false} MoveFromUnindexed<T>(index: map<Path, T>, moves: seq<(Path, Path)>, k: nat)
    requires k < |moves| && moves[k].0 !in index
    requires forall j :: 0 <= j < k ==> moves[j].1 != moves[k].0
    requires forall j :: 0 <= j < |moves| && j != k ==> moves[j].1 != moves[k].1
    ensures var r := ApplyMoves(index, moves);
            && (moves[k].1 in r <==> moves[k].1 in index)
            && (moves[k].1 in index ==> r[moves[k].1] == index[moves[k].1])
    decreases k
  {
    var (src, dst) := moves[0];
    var next := if src in index then index[dst := index[src]] else index;
    assert ApplyMoves(index, moves) == ApplyMoves(next, moves[1..]);
    if k == 0 {
      assert moves[k].1 !in Destinations(moves[1..]);
    } else {
      forall j | 0 <= j < k - 1
        ensures moves[1..][j].1 != moves[1..][k - 1].0
      {
        assert moves[1..][j] == moves[j + 1];
      }
      forall j | 0 <= j < |moves[1..]| && j != k - 1
        ensures moves[1..][j].1 != moves[1..][k - 1].1
      {
        assert moves[1..][j] == moves[j + 1];
      }
      assert moves[1..][k - 1] == moves[k];
      MoveFromUnindexed(next, moves[1..], k - 1);
    }
  }

  /** One commit of the replay: renames first, then content changes win. */
  function ApplyCommit<T(==)>(index: map<Path, T>, c: Commit<T>): (r: map<Path, T>)
    ensures forall p :: p in c.changes.changedFiles ==> p in r && r[p] == c.authorDate
    ensures r.Keys <= index.Keys + Destinations(c.changes.movedFiles) + c.changes.changedFiles
    ensures forall p :: (p in index && p !in Destinations(c.changes.movedFiles) && p !in c.changes.changedFiles)
                          ==> p in r && r[p] == index[p]
    ensures forall p :: p in r && p !in c.changes.changedFiles ==> r[p] in index.Values
  {
    var moved := ApplyMoves(index, c.changes.movedFiles);
    moved + map p | p in c.changes.changedFiles :: c.authorDate
  }

  /** A rename inside a commit carries the source's entry to a destination
      whose content the commit does not change. */
  lemma CommitMoveCopiesSource<T>(index: map<Path, T>, c: Commit<T>, k: nat)
    requires var moves := c.changes.movedFiles;
             && k < |moves| && moves[k].0 in index && moves[k].1 !in c.changes.changedFiles
             && (forall j :: 0 <= j < k ==> moves[j].1 != moves[k].0)
             && (forall j :: k < j < |moves| ==> moves[j].1 != moves[k].1)
    ensures var (src, dst) := c.changes.movedFiles[k];
            dst in ApplyCommit(index, c) && ApplyCommit(index, c)[dst] == index[src]
  {
    MoveCopiesSource(index, c.changes.movedFiles, k);
  }

  /** A rename inside a commit whose source has no entry leaves an unchanged
      destination that no other rename targets as it was. */
  lemma CommitMoveFromUnindexed<T>(index: map<Path, T>, c: Commit<T>, k: nat)
    requires var moves := c.changes.movedFiles;
             && k < |moves| && moves[k].0 !in index && moves[k].1 !in c.changes.changedFiles
             && (forall j :: 0 <= j < k ==> moves[j].1 != moves[k].0)
             && (forall j :: 0 <= j < |moves| && j != k ==> moves[j].1 != moves[k].1)
    ensures var dst := c.changes.movedFiles[k].1;
            var r := ApplyCommit(index, c);
            && (dst in r <==> dst in index)
            && (dst in index ==> r[dst] == index[dst])
  {
    MoveFromUnindexed(index, c.changes.movedFiles, k);
  }

  /** The index after replaying `commits`, given newest first. */
  function LastModified<T(==)>(commits: seq<Commit<T>>): (r: map<Path, T>)
    ensures |commits| > 0 ==> forall p :: p in commits[0].changes.changedFiles ==> p in r && r[p] == commits[0].authorDate
    decreases |commits|
  {
    if |commits| == 0 then map[] else ApplyCommit(LastModified(commits[1..]), commits[0])
  }

  /** Commit `c` changes `p`'s content or renames something onto `p`. */
  predicate Touches<T(==)>(c: Commit<T>, p: Path) {
    p in c.changes.changedFiles || p in Destinations(c.changes.movedFiles)
  }

  /** Only paths that some commit changed or renamed onto are indexed. */
  lemma {:induction false} IndexedPathsWereTouched<T>(commits: seq<Commit<T>>)
    ensures forall p :: p in LastModified(commits) ==> exists i :: 0 <= i < |commits| && Touches(commits[i], p)
    decreases |commits|
  {
    if |commits| > 0 {
      IndexedPathsWereTouched(commits[1..]);
      forall p | p in LastModified(commits)
        ensures exists i :: 0 <= i < |commits| && Touches(commits[i], p)
      {
        if !Touches(commits[0], p) {
          assert p in LastModified(commits[1..]);
          var i :| 0 <= i < |commits[1..]| && Touches(commits[1..][i], p);
          assert commits[i + 1] == commits[1..][i];
        }
      }
    }
  }

  /** Every indexed date is the author date of a commit that changed content:
      a rename never contributes its own date. */
  lemma {:induction false} IndexedDatesAreContentChanges<T>(commits: seq<Commit<T>>)
    ensures forall p :: p in LastModified(commits) ==>
              exists i :: 0 <= i < |commits| && commits[i].changes.changedFiles != {}
                          && LastModified(commits)[p] == commits[i].authorDate
    decreases |commits|
  {
    if |commits| > 0 {
      var older := LastModified(commits[1..]);
      var r := LastModified(commits);
      IndexedDatesAreContentChanges(commits[1..]);
      forall p | p in r
        ensures exists i :: 0 <= i < |commits| && commits[i].changes.changedFiles != {} && r[p] == commits[i].authorDate
      {
        if p in commits[0].changes.changedFiles {
          assert commits[0].changes.changedFiles != {};
        } else {
          assert r[p] in older.Values;
          var q :| q in older && older[q] == r[p];
          var i :| 0 <= i < |commits[1..]| && commits[1..][i].changes.changedFiles != {}
                   && older[q] == commits[1..][i].authorDate;
          assert commits[i + 1] == commits[1..][i];
        }
      }
    }
  }

  /** The last content change of a path wins: when commit `i` changed `p` and
      no newer commit changed it or renamed onto it, `p` carries commit `i`'s date. */
  lemma {:induction false} LastChangeWins<T>(commits: seq<Commit<T>>, i: nat, p: Path)
    requires i < |commits| && p in commits[i].changes.changedFiles
    requires forall j :: 0 <= j < i ==> !Touches(commits[j], p)
    ensures p in LastModified(commits) && LastModified(commits)[p] == commits[i].authorDate
    decreases i
  {
    if i > 0 {
      assert !Touches(commits[0], p);
      forall j | 0 <= j < i - 1
        ensures !Touches(commits[1..][j], p)
      {
        assert commits[1..][j] == commits[j + 1];
        assert !Touches(commits[j + 1], p);
      }
      LastChangeWins(commits[1..], i - 1, p);
    }
  }

  /** The change set of a single status record. */
  function SingleRecord(r: Record): ChangeSet
    requires WellFormed(r)
  {
    assert forall i :: 0 <= i < |[r]| ==> WellFormed([r][i]);
    FromItems([r]).value
  }

  lemma SingleRecordShape(r: Record)
    requires WellFormed(r)
    ensures SingleRecord(r).changedFiles == if r[0] != PureRename then {Destination(r)} else {}
    ensures SingleRecord(r).movedFiles == if IsRename(r) then [(r[1], Destination(r))] else []
  {
    assert [r][..0] == [];
    assert FromItems([r]) == AddRecord(Empty, r);
  }

  /** A pure rename ("R100") moves the source's date to the destination and
      adds no entry when the source has none. */
  lemma PureRenameCarriesDate<T>(index: map<Path, T>, date: T, src: Path, dst: Path)
    ensures var r := ApplyCommit(index, Commit(date, SingleRecord([PureRename, src, dst])));
            && (src in index ==> dst in r && r[dst] == index[src])
            && (src !in index ==> (dst in r <==> dst in index))
  {
    SingleRecordShape([PureRename, src, dst]);
  }

  /** A rename with content changes gives the destination the commit's own date. */
  lemma EditedRenameTakesCommitDate<T>(index: map<Path, T>, date: T, code: string, src: Path, dst: Path)
    requires |code| > 0 && code[0] == 'R' && code != PureRename
    ensures var r := ApplyCommit(index, Commit(date, SingleRecord([code, src, dst])));
            dst in r && r[dst] == date
  {
    SingleRecordShape([code, src, dst]);
  }

  /** A file added at `added`, then renamed at `renamed`: a pure rename keeps
      the addition's date, a rename with changes takes the renaming commit's. */
  lemma RenameHistory<T>(added: T, renamed: T, code: string, src: Path, dst: Path)
    requires |code| > 0 && code[0] == 'R'
    ensures var history := [Commit(renamed, SingleRecord([code, src, dst])), Commit(added, SingleRecord(["A", src]))];
            && dst in LastModified(history)
            && LastModified(history)[dst] == if code == PureRename then added else renamed
  {
    var older := [Commit(added, SingleRecord(["A", src]))];
    SingleRecordShape(["A", src]);
    assert LastModified(older) == ApplyCommit(map[], older[0]);
    assert src in LastModified(older) && LastModified(older)[src] == added;
    var history := [Commit(renamed, SingleRecord([code, src, dst])), Commit(added, SingleRecord(["A", src]))];
    assert history[1..] == older;
    if code == PureRename {
      PureRenameCarriesDate(LastModified(older), renamed, src, dst);
    } else {
      EditedRenameTakesCommitDate(LastModified(older), renamed, code, src, dst);
    }
  }
}

=== FILE: results.dfy ===
/** Failure-carrying values shared by every module of the model.
    `Option` stands for Python's `None`-or-value returns, `Result` for a value
    or a raised exception. */
module Results {

  datatype Option<+T> = None | Some(value: T)

  datatype Result<+T, +E> = Ok(value: T) | Err(error: E)
}

=== FILE: text.dfy ===
/** String primitives the hook relies on from Python's `str`: character classes
    used by the year pattern, substring search, `str.split`, `str.join`,
    `str.splitlines` (followed by dropping empty lines, which is how the
    change-set parser uses it), and `str(int)` for years. */
module Text {

  import opened Results

  /** `\d` of the year pattern, restricted to ASCII digits. */
  predicate IsDigit(c: char) {
    '0' <= c <= '9'
  }

  /** `\s` of a `str` pattern: the characters for which `str.isspace()` holds. */
  predicate IsSpace(c: char) {
    || ('\t' <= c <= '\r')
    || ('\U{1c}' <= c <= ' ')
    || c == '\U{85}' || c == '\U{a0}' || c == '\U{1680}'
    || ('\U{2000}' <= c <= '\U{200a}')
    || c == '\U{2028}' || c == '\U{2029}' || c == '\U{202f}' || c == '\U{205f}' || c == '\U{3000}'
  }

  /** The line boundaries recognised by `str.splitlines`. */
  predicate IsLineBreak(c: char) {
    || ('\n' <= c <= '\r')
    || ('\U{1c}' <= c <= '\U{1e}')
    || c == '\U{85}' || c == '\U{2028}' || c == '\U{2029}'
  }

  lemma DigitIsNotSpace(c: char)
    ensures IsDigit(c) ==> !IsSpace(c) && c != '-'
  {
  }

  /** `sep` occurs in `s` starting at index `k`. */
  predicate OccursAt(s: string, k: nat, sep: string) {
    k + |sep| <= |s| && s[k..k + |sep|] == sep
  }

  /** Python's `sep in s`. */
  ghost predicate Contains(s: string, sep: string) {
    exists k: nat :: OccursAt(s, k, sep)
  }

  /** Python's `s.find(sep, from)`: the first occurrence at or after `from`. */
  function FindFrom(s: string, sep: string, from: nat): (r: Option<nat>)
    requires |sep| > 0
    ensures r.Some? ==> from <= r.value && OccursAt(s, r.value, sep)
    ensures r.Some? ==> forall k: nat :: from <= k < r.value ==> !OccursAt(s, k, sep)
    ensures r.None? ==> forall k: nat :: from <= k ==> !OccursAt(s, k, sep)
    decreases |s| - from
  {
    if from + |sep| > |s| then None
    else if s[from..from + |sep|] == sep then Some(from)
    else FindFrom(s, sep, from + 1)
  }

  /** Python's `sep.join(parts)`. */
  function Join(parts: seq<string>, sep: string): string
    decreases |parts|
  {
    if |parts| == 0 then ""
    else if |parts| == 1 then parts[0]
    else parts[0] + sep + Join(parts[1..], sep)
  }

  /** Python's `s.split(sep)` for a non-empty separator: cut at the leftmost
      occurrence, then continue after it. */
  function Split(s: string, sep: string): (parts: seq<string>)
    requires |sep| > 0
    ensures |parts| > 0
    ensures Join(parts, sep) == s
    ensures forall i :: 0 <= i < |parts| ==> !Contains(parts[i], sep)
    ensures forall i :: 0 <= i < |parts| - 1 ==> CleanPiece(parts[i], sep)
    decreases |s|
  {
    match FindFrom(s, sep, 0)
    case None =>
      assert forall k: nat :: !OccursAt(s, k, sep);
      [s]
    case Some(k) =>
      var head := s[..k];
      assert CleanPiece(head, sep) by {
        assert head + sep == s[..k + |sep|];
        forall j: nat | j < |head|
          ensures !OccursAt(head + sep, j, sep)
        {
          if OccursAt(head + sep, j, sep) {
            assert (head + sep)[j..j + |sep|] == s[j..j + |sep|];
            assert OccursAt(s, j, sep);
          }
        }
      }
      CleanPieceHasNoSep(head, sep);
      var tail := Split(s[k + |sep|..], sep);
      assert s == head + sep + s[k + |sep|..];
      [head] + tail
  }

  /** A piece that `Split` cuts off exactly at its own end when it is followed
      by `sep`: no occurrence of `sep` starts inside it, even one that runs on
      into the separator after it. */
  ghost predicate CleanPiece(x: string, sep: string) {
    forall k: nat :: k < |x| ==> !OccursAt(x + sep, k, sep)
  }

  lemma CleanPieceHasNoSep(x: string, sep: string)
    requires |sep| > 0 && CleanPiece(x, sep)
    ensures !Contains(x, sep)
  {
    forall k: nat | OccursAt(x, k, sep)
      ensures false
    {
      assert (x + sep)[k..k + |sep|] == x[k..k + |sep|];
      assert OccursAt(x + sep, k, sep);
    }
  }

  /** `Split` inverts `Join` whenever every piece is clean. */
  lemma {:induction false} SplitJoin(parts: seq<string>, sep: string)
    requires |sep| > 0 && |parts| > 0
    requires forall i :: 0 <= i < |parts| ==> CleanPiece(parts[i], sep)
    ensures Split(Join(parts, sep), sep) == parts
    decreases |parts|
  {
    var x := parts[0];
    CleanPieceHasNoSep(x, sep);
    if |parts| == 1 {
    } else {
      var rest := Join(parts[1..], sep);
      var s := Join(parts, sep);
      assert s == x + sep + rest;
      assert (x + sep) == s[..|x| + |sep|];
      assert OccursAt(s, |x|, sep) by {
        assert s[|x|..|x| + |sep|] == sep;
      }
      forall k: nat | k < |x|
        ensures !OccursAt(s, k, sep)
      {
        assert !OccursAt(x + sep, k, sep);
      }
      var r := FindFrom(s, sep, 0);
      assert r == Some(|x|);
      assert s[|x| + |sep|..] == rest;
      SplitJoin(parts[1..], sep);
    }
  }

  /** Text without the separator is a single part. */
  lemma SplitOfPlain(x: string, sep: string)
    requires |sep| > 0 && !Contains(x, sep)
    ensures Split(x, sep) == [x]
  {
  }

  /** The first cut of `str.split` falls after a clean leading piece. */
  lemma SplitAtFirst(a: string, sep: string, b: string)
    requires |sep| > 0 && CleanPiece(a, sep)
    ensures Split(a + sep + b, sep) == [a] + Split(b, sep)
  {
    var s := a + sep + b;
    assert (a + sep) == s[..|a| + |sep|];
    assert OccursAt(s, |a|, sep) by {
      assert s[|a|..|a| + |sep|] == sep;
    }
    forall k: nat | k < |a|
      ensures !OccursAt(s, k, sep)
    {
      assert !OccursAt(a + sep, k, sep);
    }
    assert FindFrom(s, sep, 0) == Some(|a|);
    assert s[..|a|] == a;
    assert s[|a| + |sep|..] == b;
  }

  /** The elements of `xs` that are not the empty string, in order: the
      `if line` filters of the source. */
  function NonEmpty(xs: seq<string>): (ys: seq<string>)
    ensures |ys| <= |xs|
    ensures forall i :: 0 <= i < |ys| ==> ys[i] != ""
    ensures |ys| == 0 <==> forall i :: 0 <= i < |xs| ==> xs[i] == ""
    decreases |xs|
  {
    if |xs| == 0 then []
    else if xs[0] == "" then NonEmpty(xs[1..])
    else [xs[0]] + NonEmpty(xs[1..])
  }

  lemma {:induction false} NonEmptyKeepsNonEmpty(xs: seq<string>)
    requires forall i :: 0 <= i < |xs| ==> xs[i] != ""
    ensures NonEmpty(xs) == xs
    decreases |xs|
  {
    if |xs| > 0 {
      NonEmptyKeepsNonEmpty(xs[1..]);
      assert [xs[0]] + xs[1..] == xs;
    }
  }

  /** `NonEmpty` keeps exactly the non-empty elements. */
  lemma {:induction false} NonEmptyMembers(xs: seq<string>)
    ensures forall y :: y in NonEmpty(xs) <==> y in xs && y != ""
    decreases |xs|
  {
    if |xs| > 0 {
      NonEmptyMembers(xs[1..]);
      assert xs == [xs[0]] + xs[1..];
    }
  }

  /** Filtering commutes with concatenation: the kept elements stay in order. */
  lemma {:induction false} NonEmptyAppend(xs: seq<string>, ys: seq<string>)
    ensures NonEmpty(xs + ys) == NonEmpty(xs) + NonEmpty(ys)
    decreases |xs|
  {
    if |xs| == 0 {
      assert xs + ys == ys;
    } else {
      assert (xs + ys)[1..] == xs[1..] + ys;
      NonEmptyAppend(xs[1..], ys);
    }
  }

  /** An empty element anywhere is dropped and changes nothing else. Together
      with `NonEmptyKeepsNonEmpty` this determines `NonEmpty` completely. */
  lemma NonEmptyDropsBlank(xs: seq<string>, ys: seq<string>)
    ensures NonEmpty(xs + [""] + ys) == NonEmpty(xs + ys)
  {
    NonEmptyAppend(xs + [""], ys);
    NonEmptyAppend(xs, [""]);
    NonEmptyAppend(xs, ys);
  }

  /** The pieces of `s` between line boundaries, before empty ones are dropped. */
  function BreakPieces(s: string): (pieces: seq<string>)
    ensures |pieces| > 0
    ensures forall i, k :: 0 <= i < |pieces| && 0 <= k < |pieces[i]| ==> !IsLineBreak(pieces[i][k])
    decreases |s|
  {
    if |s| == 0 then [""]
    else
      var rest := BreakPieces(s[1..]);
      if IsLineBreak(s[0]) then [""] + rest
      else
        var first := [s[0]] + rest[0];
        assert forall k :: 0 < k < |first| ==> first[k] == rest[0][k - 1];
        [first] + rest[1..]
  }

  /** The non-empty lines of `s`, as `splitlines` followed by dropping the
      empty ones gives them. `splitlines` treats "\r\n" as one boundary and
      drops a trailing one; splitting at every boundary character yields the
      same non-empty lines. */
  function Lines(s: string): (lines: seq<string>)
    ensures forall i :: 0 <= i < |lines| ==> lines[i] != "" && NoLineBreak(lines[i])
  {
    var pieces := BreakPieces(s);
    NonEmptyMembers(pieces);
    assert forall x | x in pieces :: NoLineBreak(x);
    NonEmpty(pieces)
  }

  /** A line boundary cuts the text: the lines of the whole are the lines
      before it followed by the lines after it. */
  lemma LinesAtBreak(a: string, c: char, b: string)
    requires IsLineBreak(c)
    ensures Lines(a + [c] + b) == Lines(a) + Lines(b)
  {
    BreakPiecesAtBreak(a, c, b);
    NonEmptyAppend(BreakPieces(a), BreakPieces(b));
  }

  /** Text without a line boundary is one line, or none when it is empty.
      With `LinesAtBreak` this determines `Lines` completely. */
  lemma LinesOfPlain(x: string)
    requires NoLineBreak(x)
    ensures Lines(x) == if x == "" then [] else [x]
  {
    BreakPiecesOfPlain(x);
  }

  lemma {:induction false} BreakPiecesAtBreak(a: string, c: char, b: string)
    requires IsLineBreak(c)
    ensures BreakPieces(a + [c] + b) == BreakPieces(a) + BreakPieces(b)
    decreases |a|
  {
    if |a| == 0 {
      assert a + [c] + b == [c] + b;
      assert ([c] + b)[1..] == b;
    } else {
      assert (a + [c] + b)[1..] == a[1..] + [c] + b;
      BreakPiecesAtBreak(a[1..], c, b);
    }
  }

  ghost predicate NoLineBreak(x: string) {
    forall k :: 0 <= k < |x| ==> !IsLineBreak(x[k])
  }

  lemma {:induction false} BreakPiecesOfPlain(x: string)
    requires NoLineBreak(x)
    ensures BreakPieces(x) == [x]
    decreases |x|
  {
    if |x| > 0 {
      BreakPiecesOfPlain(x[1..]);
      assert [x[0]] + x[1..] == x;
    }
  }

  lemma {:induction false} BreakPiecesAppend(x: string, c: char, rest: string)
    requires NoLineBreak(x) && IsLineBreak(c)
    ensures BreakPieces(x + [c] + rest) == [x] + BreakPieces(rest)
    decreases |x|
  {
    if |x| == 0 {
      assert x + [c] + rest == [c] + rest;
      assert ([c] + rest)[1..] == rest;
    } else {
      var s := x + [c] + rest;
      assert s[1..] == x[1..] + [c] + rest;
      BreakPiecesAppend(x[1..], c, rest);
      assert [x[0]] + x[1..] == x;
    }
  }

  /** Splitting at line boundaries inverts joining plain lines with "\n". */
  lemma {:induction false} BreakPiecesJoin(lines: seq<string>)
    requires |lines| > 0
    requires forall i :: 0 <= i < |lines| ==> NoLineBreak(lines[i])
    ensures BreakPieces(Join(lines, "\n")) == lines
    decreases |lines|
  {
    if |lines| == 1 {
      BreakPiecesOfPlain(lines[0]);
    } else {
      BreakPiecesAppend(lines[0], '\n', Join(lines[1..], "\n"));
      BreakPiecesJoin(lines[1..]);
    }
  }

  /** The character for a decimal digit value. */
  function DigitChar(d: nat): (c: char)
    requires d < 10
    ensures IsDigit(c) && c as int - '0' as int == d
  {
    ('0' as int + d) as char
  }

  predicate AllDigits(s: string) {
    forall k :: 0 <= k < |s| ==> IsDigit(s[k])
  }

  /** The number a string of decimal digits denotes. */
  function DigitsValue(s: string): nat
    requires AllDigits(s)
    decreases |s|
  {
    if |s| == 0 then 0
    else DigitsValue(s[..|s| - 1]) * 10 + (s[|s| - 1] as int - '0' as int)
  }

  /** Python's `str(n)` for a non-negative integer: decimal, no leading zeros. */
  function Decimal(n: nat): (s: string)
    ensures |s| > 0 && AllDigits(s)
    ensures s[0] == '0' ==> n == 0
    ensures DigitsValue(s) == n
    decreases n
  {
    if n < 10 then [DigitChar(n)]
    else
      var init := Decimal(n / 10);
      var s := init + [DigitChar(n % 10)];
      assert s[..|s| - 1] == init;
      s
  }
}

=== FILE: updater.dfy ===
/** The decision part of `run_copyright_updater` (copyrighthook/copyright.py):
    the staged pseudo-commit, the year each file is expected to carry or the
    reason it is skipped, the header check of each file, and the overall
    verdict. Git, the file system and the clock are inputs: the commit history
    and staged change set as parsed, the disk as a map from path to decoded
    text (nothing when it is not UTF-8), and `now`. */
module Updater {

  import opened Results
  import opened Text
  import opened ChangeSets
  import opened GitLog
  import opened History
  import opened YearsRegex
  import opened YearsPattern
  import opened HeaderUpdate

  /** What the source uses of its datetimes: `.year` and `<`. */
  datatype Calendar<!T> = Calendar(yearOf: T -> nat, before: (T, T) -> bool)

  /** The configuration and command-line switches the decision depends on. */
  datatype Settings<T> = Settings(
    licenseFile: Path,
    ignoreCommitsBefore: Option<T>,
    pattern: Pattern,
    required: bool,
    dryRun: bool)

  datatype SkipReason = UnknownDate | TooOld

  /** The year a file's header must end in, or why the file is not checked. */
  datatype Plan = Skip(reason: SkipReason) | Expect(year: string)

  /** What happens to one file. `written` is the content written back. */
  datatype FileResult =
    | Skipped(reason: SkipReason)
    | NotText
    | Checked(diagnostic: Option<Diagnostic>, written: Option<string>)

  /** The history with the staged changes inserted as the newest commit, dated
      `now`, when there are any. */
  function WithStaged<T>(history: seq<Commit<T>>, staged: ChangeSet, now: T): (r: seq<Commit<T>>)
    ensures |r| == |history| + (if Truthy(staged) then 1 else 0)
    ensures r[|r| - |history|..] == history
    ensures Truthy(staged) ==> r[0] == Commit(now, staged)
  {
    if Truthy(staged) then [Commit(now, staged)] + history else history
  }

  /** `last_change_datetime`: the newest commit's date for the license file,
      the index entry for any other file. */
  function LastChange<T>(commits: seq<Commit<T>>, index: map<Path, T>, licenseFile: Path, path: Path): (r: Option<T>)
    requires |commits| > 0
    ensures path == licenseFile ==> r == Some(commits[0].authorDate)
    ensures path != licenseFile ==> (r.Some? <==> path in index) && (r.Some? ==> r.value == index[path])
  {
    if path != licenseFile then (if path in index then Some(index[path]) else None)
    else Some(commits[0].authorDate)
  }

  /** The expected year of `path`, or why it is skipped. */
  function PlanFile<T>(cal: Calendar<T>, settings: Settings<T>, commits: seq<Commit<T>>, index: map<Path, T>, path: Path)
    : (plan: Plan)
    requires |commits| > 0
    ensures plan.Skip? && plan.reason == UnknownDate <==> LastChange(commits, index, settings.licenseFile, path).None?
    ensures var d := LastChange(commits, index, settings.licenseFile, path);
            plan == Skip(TooOld) <==>
              d.Some? && settings.ignoreCommitsBefore.Some? && cal.before(d.value, settings.ignoreCommitsBefore.value)
    ensures var d := LastChange(commits, index, settings.licenseFile, path);
            && d.Some?
            && !(settings.ignoreCommitsBefore.Some? && cal.before(d.value, settings.ignoreCommitsBefore.value))
            ==> plan == Expect(Decimal(cal.yearOf(d.value)))
    ensures plan.Expect? ==> AllDigits(plan.year) && |plan.year| > 0
  {
    match LastChange(commits, index, settings.licenseFile, path)
    case None => Skip(UnknownDate)
    case Some(d) =>
      if settings.ignoreCommitsBefore.Some? && cal.before(d, settings.ignoreCommitsBefore.value) then Skip(TooOld)
      else Expect(Decimal(cal.yearOf(d)))
  }

  /** One iteration of the loop over files. */
  function CheckFile<T>(cal: Calendar<T>, settings: Settings<T>, commits: seq<Commit<T>>, index: map<Path, T>,
                        now: T, path: Path, text: Option<string>): (r: FileResult)
    requires |commits| > 0
    ensures PlanFile(cal, settings, commits, index, path).Skip? <==> r.Skipped?
    ensures r.Checked? ==> text.Some?
    ensures r.Checked? && r.written.Some? ==> r.diagnostic.Some? && !settings.dryRun
    ensures r.Checked? && r.diagnostic.Some? && !settings.dryRun ==> r.written.Some?
  {
    match PlanFile(cal, settings, commits, index, path)
    case Skip(reason) => Skipped(reason)
    case Expect(year) =>
      match text
      case None => NotText
      case Some(content) =>
        var (diagnostic, updated) := Update(content, year, settings.pattern, Decimal(cal.yearOf(now)), settings.required);
        Checked(diagnostic, if diagnostic.Some? && !settings.dryRun then Some(updated) else None)
  }

  predicate Failed(r: FileResult) {
    r.Checked? && r.diagnostic.Some?
  }

  /** The files on disk: the decoded text of each, or nothing when it is not
      UTF-8. */
  type Disk = map<Path, Option<string>>

  /** `r` writes a fixed header back to its file. */
  predicate Writes(r: FileResult) {
    r.Checked? && r.written.Some?
  }

  /** The disk after `r` was reported for `path`: a written header replaces
      the file's text. */
  function AfterWrite(disk: Disk, path: Path, r: FileResult): (d: Disk)
    ensures d.Keys == disk.Keys + (if Writes(r) then {path} else {})
    ensures forall p :: p in disk && p != path ==> d[p] == disk[p]
    ensures Writes(r) ==> d[path] == Some(r.written.value)
    ensures !Writes(r) ==> d == disk
  {
    if Writes(r) then disk[path := Some(r.written.value)] else disk
  }

  /** The loop over files, in order: `check` judges each file on the text the
      earlier iterations left on disk, and a fixed header is written back
      before the next file is read. */
  function CheckAll(check: (Path, Option<string>) -> FileResult, paths: seq<Path>, disk: Disk): (r: (seq<FileResult>, Disk))
    requires forall i :: 0 <= i < |paths| ==> paths[i] in disk
    ensures |r.0| == |paths|
    ensures r.1.Keys == disk.Keys
    ensures forall p :: p in disk && p !in paths ==> r.1[p] == disk[p]
    decreases |paths|
  {
    if |paths| == 0 then ([], disk)
    else
      var n := |paths| - 1;
      var path := paths[n];
      var (earlier, current) := CheckAll(check, paths[..n], disk);
      var result := check(path, current[path]);
      assert forall p :: p in disk && p !in paths ==> p !in paths[..n] && p != path;
      assert forall i :: 0 <= i < n ==> paths[..n][i] == paths[i];
      (earlier + [result], AfterWrite(current, path, result))
  }

  /** A file the loop leaves changed holds what the loop wrote to it. */
  lemma {:induction false} ChangedFilesWereWritten(check: (Path, Option<string>) -> FileResult, paths: seq<Path>, disk: Disk)
    requires forall j :: 0 <= j < |paths| ==> paths[j] in disk
    ensures var r := CheckAll(check, paths, disk);
            forall p :: p in disk && r.1[p] != disk[p] ==>
              exists i :: 0 <= i < |paths| && paths[i] == p && Writes(r.0[i]) && r.0[i].written == r.1[p]
    decreases |paths|
  {
    if |paths| > 0 {
      var n := |paths| - 1;
      var prefix := paths[..n];
      var earlier := CheckAll(check, prefix, disk);
      var result := check(paths[n], earlier.1[paths[n]]);
      var r := CheckAll(check, paths, disk);
      assert r == (earlier.0 + [result], AfterWrite(earlier.1, paths[n], result));
      ChangedFilesWereWritten(check, prefix, disk);
      forall p | p in disk && r.1[p] != disk[p]
        ensures exists i :: 0 <= i < |paths| && paths[i] == p && Writes(r.0[i]) && r.0[i].written == r.1[p]
      {
        if p == paths[n] && Writes(result) {
          assert r.0[n] == result;
        } else {
          assert r.1[p] == earlier.1[p];
          var i :| 0 <= i < n && prefix[i] == p && Writes(earlier.0[i]) && earlier.0[i].written == earlier.1[p];
          assert r.0[i] == earlier.0[i];
        }
      }
    }
  }

  /** Iteration `i` of the loop judges the text the first `i` iterations left. */
  lemma {:induction false} CheckAllStep(check: (Path, Option<string>) -> FileResult, paths: seq<Path>, disk: Disk, i: nat)
    requires forall j :: 0 <= j < |paths| ==> paths[j] in disk
    requires i < |paths|
    ensures var before := CheckAll(check, paths[..i], disk).1;
            paths[i] in before && CheckAll(check, paths, disk).0[i] == check(paths[i], before[paths[i]])
    decreases |paths|
  {
    var n := |paths| - 1;
    var prefix := paths[..n];
    var earlier := CheckAll(check, prefix, disk);
    assert CheckAll(check, paths, disk).0 == earlier.0 + [check(paths[n], earlier.1[paths[n]])];
    if i < n {
      assert forall j :: 0 <= j < n ==> prefix[j] == paths[j];
      CheckAllStep(check, prefix, disk, i);
      assert prefix[..i] == paths[..i];
    } else {
      assert prefix == paths[..i];
    }
  }

  /** The first visit of a path judges the text it had before the loop. */
  lemma FirstVisitReadsDisk(check: (Path, Option<string>) -> FileResult, paths: seq<Path>, disk: Disk, i: nat)
    requires forall j :: 0 <= j < |paths| ==> paths[j] in disk
    requires i < |paths| && paths[i] !in paths[..i]
    ensures CheckAll(check, paths, disk).0[i] == check(paths[i], disk[paths[i]])
  {
    CheckAllStep(check, paths, disk, i);
    assert forall j :: 0 <= j < i ==> paths[..i][j] == paths[j];
  }

  /** A loop in which no file is written leaves the disk as it was. */
  lemma NoWriteKeepsDisk(check: (Path, Option<string>) -> FileResult, paths: seq<Path>, disk: Disk)
    requires forall j :: 0 <= j < |paths| ==> paths[j] in disk
    requires forall j :: 0 <= j < |paths| ==> !Writes(CheckAll(check, paths, disk).0[j])
    ensures CheckAll(check, paths, disk).1 == disk
  {
    var after := CheckAll(check, paths, disk).1;
    ChangedFilesWereWritten(check, paths, disk);
    assert forall p :: p in disk ==> after[p] == disk[p];
  }

  /** `run_copyright_updater` after its I/O: whether any file has an invalid
      header, what happened to each file, and the disk afterwards. Without
      staged changes and commits nothing is checked. The paths exist on disk,
      as the command-line validation guarantees. */
  function Run<T(==)>(cal: Calendar<T>, settings: Settings<T>, history: seq<Commit<T>>, staged: ChangeSet, now: T,
                      paths: seq<Path>, disk: Disk): (r: (bool, seq<FileResult>, Disk))
    requires forall i :: 0 <= i < |paths| ==> paths[i] in disk
    ensures |history| == 0 && !Truthy(staged) ==> r == (false, [], disk)
    ensures |history| > 0 || Truthy(staged) ==> |r.1| == |paths|
    ensures r.0 <==> exists i :: 0 <= i < |r.1| && Failed(r.1[i])
    ensures r.2.Keys == disk.Keys
    ensures forall p :: p in disk && p !in paths ==> r.2[p] == disk[p]
  {
    var commits := WithStaged(history, staged, now);
    if |commits| == 0 then (false, [], disk)
    else
      var (results, after) := CheckAll(FileCheck(cal, settings, commits, now), paths, disk);
      (exists i :: 0 <= i < |results| && Failed(results[i]), results, after)
  }

  /** The check of one file against the history `commits`. */
  function FileCheck<T(==)>(cal: Calendar<T>, settings: Settings<T>, commits: seq<Commit<T>>, now: T)
    : (check: (Path, Option<string>) -> FileResult)
    requires |commits| > 0
    ensures forall p, text :: check(p, text) == CheckFile(cal, settings, commits, LastModified(commits), now, p, text)
  {
    var index := LastModified(commits);
    (p, text) => CheckFile(cal, settings, commits, index, now, p, text)
  }

  /** Every file with staged content changes was last modified `now`. */
  lemma StagedChangesDatedNow<T>(history: seq<Commit<T>>, staged: ChangeSet, now: T, p: Path)
    requires p in staged.changedFiles && Truthy(staged)
    ensures var index := LastModified(WithStaged(history, staged, now));
            p in index && index[p] == now
  {
    LastChangeWins(WithStaged(history, staged, now), 0, p);
  }

  /** A file the staged changes do not touch keeps its committed date, or stays
      unknown. */
  lemma UnstagedFileKeepsCommittedDate<T>(history: seq<Commit<T>>, staged: ChangeSet, now: T, p: Path)
    requires !Touches(Commit(now, staged), p)
    ensures var before := LastModified(history);
            var after := LastModified(WithStaged(history, staged, now));
            (p in after <==> p in before) && (p in before ==> after[p] == before[p])
  {
    var commits := WithStaged(history, staged, now);
    if Truthy(staged) {
      assert commits[1..] == history;
    }
  }

  /** A file with staged changes, other than the license file, must carry the
      current year unless `now` itself is before the cutoff. */
  lemma StagedFileExpectsCurrentYear<T>(cal: Calendar<T>, settings: Settings<T>, history: seq<Commit<T>>,
                                        staged: ChangeSet, now: T, p: Path)
    requires p in staged.changedFiles && Truthy(staged) && p != settings.licenseFile
    requires settings.ignoreCommitsBefore.None? || !cal.before(now, settings.ignoreCommitsBefore.value)
    ensures var commits := WithStaged(history, staged, now);
            PlanFile(cal, settings, commits, LastModified(commits), p) == Expect(Decimal(cal.yearOf(now)))
  {
    StagedChangesDatedNow(history, staged, now, p);
  }

  /** The license file must carry the year of the newest commit, which is
      `now` when there are staged changes. */
  lemma LicenseFileExpectsNewestYear<T>(cal: Calendar<T>, settings: Settings<T>, history: seq<Commit<T>>,
                                        staged: ChangeSet, now: T)
    requires |history| > 0 || Truthy(staged)
    requires var newest := if Truthy(staged) then now else history[0].authorDate;
             settings.ignoreCommitsBefore.None? || !cal.before(newest, settings.ignoreCommitsBefore.value)
    ensures var commits := WithStaged(history, staged, now);
            var newest := if Truthy(staged) then now else history[0].authorDate;
            PlanFile(cal, settings, commits, LastModified(commits), settings.licenseFile)
            == Expect(Decimal(cal.yearOf(newest)))
  {
  }

  /** A file no loaded commit changed or renamed onto is skipped: its date is
      unknown (for instance when its history predates the loaded commits). */
  lemma UntouchedFileIsSkipped<T>(cal: Calendar<T>, settings: Settings<T>, commits: seq<Commit<T>>, p: Path)
    requires |commits| > 0 && p != settings.licenseFile
    requires forall i :: 0 <= i < |commits| ==> !Touches(commits[i], p)
    ensures PlanFile(cal, settings, commits, LastModified(commits), p) == Skip(UnknownDate)
  {
    IndexedPathsWereTouched(commits);
  }

  /** A committed file is expected to carry the year of its last content
      change, when no newer commit renamed onto it and the change is not
      before the cutoff. */
  lemma CommittedFileExpectsLastChangeYear<T>(cal: Calendar<T>, settings: Settings<T>, commits: seq<Commit<T>>,
                                              i: nat, p: Path)
    requires i < |commits| && p in commits[i].changes.changedFiles && p != settings.licenseFile
    requires forall j :: 0 <= j < i ==> !Touches(commits[j], p)
    requires settings.ignoreCommitsBefore.None? || !cal.before(commits[i].authorDate, settings.ignoreCommitsBefore.value)
    ensures PlanFile(cal, settings, commits, LastModified(commits), p) == Expect(Decimal(cal.yearOf(commits[i].authorDate)))
  {
    LastChangeWins(commits, i, p);
  }

  /** A file whose last change is before `ignore_commits_before` is skipped. */
  lemma OldFileIsSkipped<T>(cal: Calendar<T>, settings: Settings<T>, commits: seq<Commit<T>>, p: Path)
    requires |commits| > 0
    requires LastChange(commits, LastModified(commits), settings.licenseFile, p).Some?
    requires settings.ignoreCommitsBefore.Some?
    requires cal.before(LastChange(commits, LastModified(commits), settings.licenseFile, p).value,
                        settings.ignoreCommitsBefore.value)
    ensures PlanFile(cal, settings, commits, LastModified(commits), p) == Skip(TooOld)
  {
  }

  /** A dry run writes no file, whatever it reports. */
  lemma DryRunWritesNothing<T>(cal: Calendar<T>, settings: Settings<T>, history: seq<Commit<T>>, staged: ChangeSet,
                               now: T, paths: seq<Path>, disk: Disk)
    requires settings.dryRun
    requires forall i :: 0 <= i < |paths| ==> paths[i] in disk
    ensures var r := Run(cal, settings, history, staged, now, paths, disk);
            && r.2 == disk
            && forall i :: 0 <= i < |r.1| && r.1[i].Checked? ==> r.1[i].written.None?
  {
    var commits := WithStaged(history, staged, now);
    if |commits| > 0 {
      var check := FileCheck(cal, settings, commits, now);
      forall i | 0 <= i < |paths|
        ensures !Writes(CheckAll(check, paths, disk).0[i])
      {
        CheckAllStep(check, paths, disk, i);
      }
      NoWriteKeepsDisk(check, paths, disk);
    }
  }

  /** A checked file is reported exactly when `update_file` returns a
      diagnostic for the text the loop reads, against its expected year and
      the current year, and the content written back is the updated one. */
  lemma CheckedFileFollowsUpdate<T>(cal: Calendar<T>, settings: Settings<T>, history: seq<Commit<T>>, staged: ChangeSet,
                                    now: T, paths: seq<Path>, disk: Disk, i: nat)
    requires |history| > 0 || Truthy(staged)
    requires forall j :: 0 <= j < |paths| ==> paths[j] in disk
    requires i < |paths|
    ensures var commits := WithStaged(history, staged, now);
            var seen := CheckAll(FileCheck(cal, settings, commits, now), paths[..i], disk).1;
            var r := Run(cal, settings, history, staged, now, paths, disk);
            && paths[i] in seen
            && match PlanFile(cal, settings, commits, LastModified(commits), paths[i])
               case Skip(reason) => r.1[i] == Skipped(reason)
               case Expect(year) =>
                 match seen[paths[i]]
                 case None => r.1[i] == NotText
                 case Some(content) =>
                   var u := Update(content, year, settings.pattern, Decimal(cal.yearOf(now)), settings.required);
                   && r.1[i].Checked?
                   && r.1[i].diagnostic == u.0
                   && (r.1[i].written.Some? ==> r.1[i].written.value == u.1)
                   && (r.0 || u.0.None?)
  {
    var commits := WithStaged(history, staged, now);
    CheckAllStep(FileCheck(cal, settings, commits, now), paths, disk, i);
  }

  /** The first time the loop reaches a path, it judges the text the file had
      before the run. */
  lemma FirstVisitFollowsDisk<T>(cal: Calendar<T>, settings: Settings<T>, history: seq<Commit<T>>, staged: ChangeSet,
                                 now: T, paths: seq<Path>, disk: Disk, i: nat)
    requires |history| > 0 || Truthy(staged)
    requires forall j :: 0 <= j < |paths| ==> paths[j] in disk
    requires i < |paths| && paths[i] !in paths[..i]
    ensures var commits := WithStaged(history, staged, now);
            Run(cal, settings, history, staged, now, paths, disk).1[i]
            == CheckFile(cal, settings, commits, LastModified(commits), now, paths[i], disk[paths[i]])
  {
    var commits := WithStaged(history, staged, now);
    FirstVisitReadsDisk(FileCheck(cal, settings, commits, now), paths, disk, i);
  }
}

=== FILE: years_pattern.dfy ===
/** `YearsPattern` (copyrighthook/years_pattern.py). A template such as
    "# (c) {years}, developers" is split at its first "{years}"; the two literal
    halves surround the expression of `YearsRegex`, and `re.search` finds the
    header. The scanner (`Search`) is proved to return the match that
    expression's backtracking order selects, and `extract` and `replace` read
    and rewrite its capture spans. */
module YearsPattern {

  import opened Results
  import opened Text
  import opened YearsRegex

  const Placeholder: string := "{years}"
  const MissingPlaceholder: string := "Pattern must contain '{years}'"
  const NoYearsInContent: string := "no copyright years in content"

  /** `YearsPattern.__init__`: fails without a placeholder, otherwise splits at
      its first occurrence. */
  function Compile(template: string): (r: Result<Pattern, string>)
    ensures r.Err? <==> !Contains(template, Placeholder)
    ensures r.Err? ==> r.error == MissingPlaceholder
    ensures r.Ok? ==> template == r.value.prefix + Placeholder + r.value.suffix
    ensures r.Ok? ==> forall k: nat :: k < |r.value.prefix| ==> !OccursAt(template, k, Placeholder)
  {
    match FindFrom(template, Placeholder, 0)
    case None => Err(MissingPlaceholder)
    case Some(k) =>
      assert template == template[..k] + Placeholder + template[k + |Placeholder|..];
      Ok(Pattern(template[..k], template[k + |Placeholder|..]))
  }

  /** Compiling a template built around its first placeholder gives back the
      two halves. */
  lemma CompileSplitsAtPlaceholder(prefix: string, suffix: string)
    requires CleanPiece(prefix, Placeholder)
    ensures Compile(prefix + Placeholder + suffix) == Ok(Pattern(prefix, suffix))
  {
    var t := prefix + Placeholder + suffix;
    assert OccursAt(t, |prefix|, Placeholder) by {
      assert t[|prefix|..|prefix| + |Placeholder|] == Placeholder;
    }
    forall k: nat | k < |prefix|
      ensures !OccursAt(t, k, Placeholder)
    {
      assert !OccursAt(prefix + Placeholder, k, Placeholder);
      assert t[..|prefix| + |Placeholder|] == prefix + Placeholder;
      if k + |Placeholder| <= |t| {
        assert t[k..k + |Placeholder|] == (prefix + Placeholder)[k..k + |Placeholder|];
      }
    }
    assert t[..|prefix|] == prefix;
    assert t[|prefix| + |Placeholder|..] == suffix;
  }

  /** The match at start `i`, if any: the range alternative first, then the
      single year. */
  function MatchAt(s: string, p: Pattern, i: nat): (r: Option<Match>)
    requires i <= |s|
    ensures r.Some? ==> r.value.start == i && IsSearchResultAt(s, p, r.value)
    ensures r.None? <==> !MatchesAt(s, p, i)
  {
    match RangeAt(s, p, i)
    case Some(t) => Some(RangeMatch(i, t))
    case None =>
      match SingleAt(s, p, i)
      case Some(t) => Some(SingleMatch(i, t))
      case None => None
  }

  /** The search from start `i` onwards. */
  function SearchFrom(s: string, p: Pattern, i: nat): (r: Option<Match>)
    requires i <= |s|
    ensures r.Some? ==> && i <= r.value.start
                        && (forall j :: i <= j < r.value.start ==> !MatchesAt(s, p, j))
                        && IsSearchResultAt(s, p, r.value)
    ensures r.None? ==> forall j :: i <= j <= |s| ==> !MatchesAt(s, p, j)
    decreases |s| - i
  {
    var here := MatchAt(s, p, i);
    if here.Some? then here
    else if i == |s| then None
    else
      var r := SearchFrom(s, p, i + 1);
      assert r.Some? ==> forall j :: i <= j < r.value.start ==> !MatchesAt(s, p, j) by {
        if r.Some? {
          forall j | i <= j < r.value.start ensures !MatchesAt(s, p, j) {
            if j > i {}
          }
        }
      }
      r
  }

  /** The part of `IsSearchResult` that concerns the chosen start alone. */
  ghost predicate IsSearchResultAt(s: string, p: Pattern, m: Match) {
    && m.start <= |s|
    && match m
       case RangeMatch(i, t) => FirstRangeAt(s, p, i, t)
       case SingleMatch(i, t) => FirstSingleAt(s, p, i, t)
  }

  /** The leftmost match of the years expression in a text, if any. */
  function Search(s: string, p: Pattern): (r: Option<Match>)
    ensures r.Some? ==> IsSearchResult(s, p, r.value)
    ensures r.None? ==> forall j :: 0 <= j <= |s| ==> !MatchesAt(s, p, j)
  {
    SearchFrom(s, p, 0)
  }

  /** Every range parse at one start captures the same `from` span and the
      same start of `to`; `FirstRangeAt` then fixes `to`'s end. */
  lemma RangeTreesAgree(s: string, p: Pattern, i: nat, t1: RangeTree, t2: RangeTree)
    requires RangeTreeAt(s, p, i, t1) && RangeTreeAt(s, p, i, t2)
    ensures t1.fromStart == t2.fromStart && t1.fromEnd == t2.fromEnd
    ensures t1.dash == t2.dash && t1.toStart == t2.toStart
  {
    RangeHeadForced(s, p, i, t1.fromStart, t1.fromEnd, t1.dash);
    RangeHeadForced(s, p, i, t2.fromStart, t2.fromEnd, t2.dash);
    YearFromForced(s, p, t1.dash + 1, ToYear(t1));
    YearFromForced(s, p, t2.dash + 1, ToYear(t2));
  }

  /** The capture spans of a match: what the source reads back from it. */
  predicate SameCaptures(m1: Match, m2: Match) {
    && m1.start == m2.start
    && match m1
       case RangeMatch(_, t1) =>
         && m2.RangeMatch?
         && t1.fromStart == m2.range.fromStart && t1.fromEnd == m2.range.fromEnd
         && t1.toStart == m2.range.toStart && t1.toEnd == m2.range.toEnd
       case SingleMatch(_, t1) =>
         m2.SingleMatch? && t1.yearStart == m2.single.yearStart && t1.yearEnd == m2.single.yearEnd
  }

  /** The specification determines the captures: any two search results agree
      on start, alternative and spans, so the scanner returns the spans
      `re.search` reports. */
  lemma SearchResultUnique(s: string, p: Pattern, m1: Match, m2: Match)
    requires IsSearchResult(s, p, m1) && IsSearchResult(s, p, m2)
    ensures SameCaptures(m1, m2)
  {
    assert MatchesAt(s, p, m1.start) && MatchesAt(s, p, m2.start);
    assert m1.start == m2.start;
    assert m1.RangeMatch? ==> RangeMatchesAt(s, p, m1.start);
    assert m2.RangeMatch? ==> RangeMatchesAt(s, p, m2.start);
    var i := m1.start;
    match m1 {
      case RangeMatch(_, t1) =>
        match m2 {
          case RangeMatch(_, t2) =>
            RangeTreesAgree(s, p, i, t1, t2);
          case SingleMatch(_, _) =>
        }
      case SingleMatch(_, t1) =>
        match m2 {
          case RangeMatch(_, _) =>
          case SingleMatch(_, t2) =>
            YearFromForced(s, p, i + |p.prefix|, t1);
            YearFromForced(s, p, i + |p.prefix|, t2);
        }
    }
  }

  // ---------------------------------------------------------------------------
  // extract and replace

  /** A single year, or a `from`-`to` range, as the source passes them around. */
  datatype Years = Year(year: string) | YearRange(from: string, to: string)

  /** The spans of a match lie in order inside the text. */
  predicate WithinText(s: string, m: Match) {
    match m
    case RangeMatch(_, t) => t.fromStart <= t.fromEnd <= t.toStart <= t.toEnd <= |s|
    case SingleMatch(_, t) => t.yearStart <= t.yearEnd <= |s|
  }

  lemma SearchResultWithinText(s: string, p: Pattern, m: Match)
    requires IsSearchResult(s, p, m)
    ensures WithinText(s, m)
  {
  }

  /** The captured group texts. */
  function Captured(s: string, m: Match): Years
    requires WithinText(s, m)
  {
    match m
    case RangeMatch(_, t) => YearRange(s[t.fromStart..t.fromEnd], s[t.toStart..t.toEnd])
    case SingleMatch(_, t) => Year(s[t.yearStart..t.yearEnd])
  }

  /** `extract`: nothing when the header is absent, the pair when the range
      alternative matched, otherwise the single year. */
  function Extract(p: Pattern, s: string): (r: Option<Years>)
    ensures r.None? <==> forall j :: 0 <= j <= |s| ==> !MatchesAt(s, p, j)
    ensures r.Some? ==> exists m :: IsSearchResult(s, p, m) && WithinText(s, m) && r.value == Captured(s, m)
  {
    match Search(s, p)
    case None => None
    case Some(m) =>
      SearchResultWithinText(s, p, m);
      assert MatchesAt(s, p, m.start);
      Some(Captured(s, m))
  }

  /** The text with the match's year spans rewritten to `v`. */
  function Splice(s: string, m: Match, v: Years): string
    requires WithinText(s, m)
  {
    match m
    case RangeMatch(_, t) =>
      (match v
       case YearRange(a, b) => s[..t.fromStart] + a + s[t.fromEnd..t.toStart] + b + s[t.toEnd..]
       case Year(y) => s[..t.fromStart] + y + s[t.toEnd..])
    case SingleMatch(_, t) =>
      var text := (match v
                   case YearRange(a, b) => a + "-" + b
                   case Year(y) => y);
      s[..t.yearStart] + text + s[t.yearEnd..]
  }

  /** `replace`: fails when there is no header, otherwise rewrites its years. */
  function Replace(p: Pattern, s: string, v: Years): (r: Result<string, string>)
    ensures r.Err? <==> forall j :: 0 <= j <= |s| ==> !MatchesAt(s, p, j)
    ensures r.Err? ==> r.error == NoYearsInContent
  {
    match Search(s, p)
    case None => Err(NoYearsInContent)
    case Some(m) =>
      SearchResultWithinText(s, p, m);
      assert MatchesAt(s, p, m.start);
      Ok(Splice(s, m, v))
  }

  lemma SpliceOfSameCaptures(s: string, m1: Match, m2: Match, v: Years)
    requires WithinText(s, m1) && WithinText(s, m2) && SameCaptures(m1, m2)
    ensures Splice(s, m1, v) == Splice(s, m2, v) && Captured(s, m1) == Captured(s, m2)
  {
  }

  /** `replace` acts on the spans of the match `re.search` finds. */
  lemma ReplaceAtSearchResult(p: Pattern, s: string, m: Match, v: Years)
    requires IsSearchResult(s, p, m)
    ensures WithinText(s, m)
    ensures Replace(p, s, v) == Ok(Splice(s, m, v))
    ensures Extract(p, s) == Some(Captured(s, m))
  {
    var found := Search(s, p);
    assert MatchesAt(s, p, m.start);
    SearchResultUnique(s, p, found.value, m);
    SpliceOfSameCaptures(s, found.value, m, v);
  }

  /** The text a pair splice leaves around the two new years. */
  lemma SplicePairKeepsOutside(s: string, i: nat, t: RangeTree, a: string, b: string)
    requires WithinText(s, RangeMatch(i, t))
    ensures var r := Splice(s, RangeMatch(i, t), YearRange(a, b));
            && r[..t.fromStart] == s[..t.fromStart]
            && r[t.fromStart + |a| + (t.toStart - t.fromEnd) + |b|..] == s[t.toEnd..]
  {
  }

  /** A range rewritten to a pair: only the `from` and `to` spans change; the
      text before `from`, between the two, and after `to` is kept. */
  lemma ReplaceRangeWithPair(p: Pattern, s: string, i: nat, t: RangeTree, a: string, b: string)
    requires IsSearchResult(s, p, RangeMatch(i, t))
    ensures var r := Replace(p, s, YearRange(a, b));
            && r.Ok?
            && r.value == s[..t.fromStart] + a + s[t.fromEnd..t.toStart] + b + s[t.toEnd..]
            && r.value[..t.fromStart] == s[..t.fromStart]
            && r.value[t.fromStart + |a| + (t.toStart - t.fromEnd) + |b|..] == s[t.toEnd..]
  {
    ReplaceAtSearchResult(p, s, RangeMatch(i, t), YearRange(a, b));
    SplicePairKeepsOutside(s, i, t, a, b);
  }

  /** A range rewritten to one value: the stretch from `from`'s start to
      `to`'s end becomes that value. */
  lemma ReplaceRangeWithYear(p: Pattern, s: string, i: nat, t: RangeTree, y: string)
    requires IsSearchResult(s, p, RangeMatch(i, t))
    ensures Replace(p, s, Year(y)) == Ok(s[..t.fromStart] + y + s[t.toEnd..])
  {
    ReplaceAtSearchResult(p, s, RangeMatch(i, t), Year(y));
  }

  /** Splicing (the range's own first year, `y`) replaces the second year only. */
  lemma SpliceRangeTo(s: string, i: nat, t: RangeTree, y: string)
    requires WithinText(s, RangeMatch(i, t))
    ensures Splice(s, RangeMatch(i, t), YearRange(s[t.fromStart..t.fromEnd], y)) == s[..t.toStart] + y + s[t.toEnd..]
  {
    assert s[..t.fromStart] + s[t.fromStart..t.fromEnd] + s[t.fromEnd..t.toStart] == s[..t.toStart];
  }

  /** A range rewritten to (its first year, `y`): the second year becomes `y`
      and all other text is kept. */
  lemma ReplaceRangeTo(p: Pattern, s: string, i: nat, t: RangeTree, y: string)
    requires IsSearchResult(s, p, RangeMatch(i, t))
    ensures Extract(p, s) == Some(YearRange(s[t.fromStart..t.fromEnd], s[t.toStart..t.toEnd]))
    ensures Replace(p, s, YearRange(s[t.fromStart..t.fromEnd], y)) == Ok(s[..t.toStart] + y + s[t.toEnd..])
  {
    ReplaceAtSearchResult(p, s, RangeMatch(i, t), YearRange(s[t.fromStart..t.fromEnd], y));
    SpliceRangeTo(s, i, t, y);
  }

  /** A single year rewritten: its span becomes "a-b" for a pair, or the value. */
  lemma ReplaceSingle(p: Pattern, s: string, i: nat, t: SingleTree, v: Years)
    requires IsSearchResult(s, p, SingleMatch(i, t))
    ensures Replace(p, s, v) == Ok(s[..t.yearStart]
                                   + (if v.YearRange? then v.from + "-" + v.to else v.year)
                                   + s[t.yearEnd..])
  {
    ReplaceAtSearchResult(p, s, SingleMatch(i, t), v);
  }

  /** Splicing a match's own captures back in rebuilds the text. */
  lemma SpliceCapturedIsIdentity(s: string, m: Match)
    requires WithinText(s, m)
    ensures Splice(s, m, Captured(s, m)) == s
  {
    match m
    case RangeMatch(_, t) =>
      assert s == s[..t.fromStart] + s[t.fromStart..t.fromEnd] + s[t.fromEnd..t.toStart]
                  + s[t.toStart..t.toEnd] + s[t.toEnd..];
    case SingleMatch(_, t) =>
      assert s == s[..t.yearStart] + s[t.yearStart..t.yearEnd] + s[t.yearEnd..];
  }

  lemma SpliceSingleTo(s: string, i: nat, t: SingleTree, y: string)
    requires WithinText(s, SingleMatch(i, t))
    ensures Splice(s, SingleMatch(i, t), YearRange(s[t.yearStart..t.yearEnd], y))
            == s[..t.yearStart] + s[t.yearStart..t.yearEnd] + "-" + y + s[t.yearEnd..]
  {
  }

  /** A single year rewritten to (it, `y`): the range "year-y" takes its place. */
  lemma ReplaceSingleTo(p: Pattern, s: string, i: nat, t: SingleTree, y: string)
    requires IsSearchResult(s, p, SingleMatch(i, t))
    ensures Extract(p, s) == Some(Year(s[t.yearStart..t.yearEnd]))
    ensures Replace(p, s, YearRange(s[t.yearStart..t.yearEnd], y))
            == Ok(s[..t.yearStart] + s[t.yearStart..t.yearEnd] + "-" + y + s[t.yearEnd..])
  {
    ReplaceAtSearchResult(p, s, SingleMatch(i, t), YearRange(s[t.yearStart..t.yearEnd], y));
    SpliceSingleTo(s, i, t, y);
  }

  /** Writing back what `extract` read leaves the text unchanged. */
  lemma ReplaceWithExtractedIsIdentity(p: Pattern, s: string)
    requires Extract(p, s).Some?
    ensures Replace(p, s, Extract(p, s).value) == Ok(s)
  {
    var m := Search(s, p).value;
    ReplaceAtSearchResult(p, s, m, Captured(s, m));
    SpliceCapturedIsIdentity(s, m);
  }

  /** `extract` returns a pair exactly when the range alternative matched at
      the leftmost matching start. */
  lemma ExtractRangeIffRangeBranch(p: Pattern, s: string, m: Match)
    requires IsSearchResult(s, p, m)
    ensures Extract(p, s).Some?
    ensures Extract(p, s).value.YearRange? <==> RangeMatchesAt(s, p, m.start)
  {
    ReplaceAtSearchResult(p, s, m, Year(""));
  }
}

=== FILE: years_regex.dfy ===
/** The regular expression a compiled `YearsPattern`
    (copyrighthook/years_pattern.py) searches with: a literal prefix, then

        \s*(?:(?P<from>\d+)\s*-\s*(?P<to>\d+)|(?P<year>\d+))\s*

    then a literal suffix. Its meaning is given by parse trees (`RangeTreeAt`,
    `SingleTreeAt`) together with the order in which a backtracking matcher
    tries them (`IsSearchResult`); the steps of a deterministic scanner
    (`RangeAt`, `SingleAt`) compute the parse that order selects. */
module YearsRegex {

  import opened Results
  import opened Text

  /** A compiled pattern: the literal text before and after the placeholder. */
  datatype Pattern = Pattern(prefix: string, suffix: string)

  // ---------------------------------------------------------------------------
  // What the regular expression means

  /** `\s*` spans [a, b). */
  ghost predicate Spaces(s: string, a: nat, b: nat) {
    a <= b <= |s| && forall k :: a <= k < b ==> IsSpace(s[k])
  }

  /** `\d+` spans [a, b). */
  ghost predicate Digits(s: string, a: nat, b: nat) {
    a < b <= |s| && forall k :: a <= k < b ==> IsDigit(s[k])
  }

  /** Positions of a parse through the range alternative: the `from` and `to`
      digit runs, the hyphen, and where the suffix literal starts. */
  datatype RangeTree = RangeTree(fromStart: nat, fromEnd: nat, dash: nat, toStart: nat, toEnd: nat, suffixAt: nat)

  /** Positions of a parse through the single-year alternative. */
  datatype SingleTree = SingleTree(yearStart: nat, yearEnd: nat, suffixAt: nat)

  /** The tail both alternatives end in, read from `a`: `\s*`, a year
      `\d+`, `\s*` and the suffix literal. */
  ghost predicate YearFrom(s: string, p: Pattern, a: nat, y: SingleTree) {
    && Spaces(s, a, y.yearStart)
    && Digits(s, y.yearStart, y.yearEnd)
    && Spaces(s, y.yearEnd, y.suffixAt)
    && OccursAt(s, y.suffixAt, p.suffix)
  }

  /** The head of the range alternative, read from `i`: the prefix literal,
      `\s*`, the `from` year [fromStart, fromEnd), `\s*` and the hyphen at `dash`. */
  ghost predicate RangeHeadAt(s: string, p: Pattern, i: nat, fromStart: nat, fromEnd: nat, dash: nat) {
    && OccursAt(s, i, p.prefix)
    && Spaces(s, i + |p.prefix|, fromStart)
    && Digits(s, fromStart, fromEnd)
    && Spaces(s, fromEnd, dash)
    && dash < |s| && s[dash] == '-'
  }

  /** The `to` year of a range parse, with the suffix after it. */
  function ToYear(t: RangeTree): SingleTree {
    SingleTree(t.toStart, t.toEnd, t.suffixAt)
  }

  /** The expression matches `s` from `i` along the range alternative. */
  ghost predicate RangeTreeAt(s: string, p: Pattern, i: nat, t: RangeTree) {
    RangeHeadAt(s, p, i, t.fromStart, t.fromEnd, t.dash) && YearFrom(s, p, t.dash + 1, ToYear(t))
  }

  /** The expression matches `s` from `i` along the single-year alternative. */
  ghost predicate SingleTreeAt(s: string, p: Pattern, i: nat, t: SingleTree) {
    OccursAt(s, i, p.prefix) && YearFrom(s, p, i + |p.prefix|, t)
  }

  ghost predicate RangeMatchesAt(s: string, p: Pattern, i: nat) {
    exists t :: RangeTreeAt(s, p, i, t)
  }

  ghost predicate SingleMatchesAt(s: string, p: Pattern, i: nat) {
    exists t :: SingleTreeAt(s, p, i, t)
  }

  ghost predicate MatchesAt(s: string, p: Pattern, i: nat) {
    RangeMatchesAt(s, p, i) || SingleMatchesAt(s, p, i)
  }

  /** The range parse a backtracking matcher settles on at `i`. Every position
      before `to`'s end is forced (see `RangeTreesAgree`); greedy `\d+` tries
      the longest `to` first. */
  ghost predicate FirstRangeAt(s: string, p: Pattern, i: nat, t: RangeTree) {
    RangeTreeAt(s, p, i, t) && forall t' :: RangeTreeAt(s, p, i, t') ==> t'.toEnd <= t.toEnd
  }

  /** The single-year parse tried only once the range alternative has failed. */
  ghost predicate FirstSingleAt(s: string, p: Pattern, i: nat, t: SingleTree) {
    && !RangeMatchesAt(s, p, i)
    && SingleTreeAt(s, p, i, t)
    && forall t' :: SingleTreeAt(s, p, i, t') ==> t'.yearEnd <= t.yearEnd
  }

  datatype Match = RangeMatch(start: nat, range: RangeTree) | SingleMatch(start: nat, single: SingleTree)

  /** `re.search`: the leftmost start where the expression matches, and the
      first parse there in backtracking order. */
  ghost predicate IsSearchResult(s: string, p: Pattern, m: Match) {
    && m.start <= |s|
    && (forall j :: 0 <= j < m.start ==> !MatchesAt(s, p, j))
    && match m
       case RangeMatch(i, t) => FirstRangeAt(s, p, i, t)
       case SingleMatch(i, t) => FirstSingleAt(s, p, i, t)
  }

  // ---------------------------------------------------------------------------
  // The scanner

  /** The end of the whitespace run starting at `a` (greedy `\s*`): no
      whitespace run from `a` is longer. */
  function SpaceRun(s: string, a: nat): (b: nat)
    requires a <= |s|
    ensures Spaces(s, a, b) && (b == |s| || !IsSpace(s[b]))
    ensures forall b': nat :: Spaces(s, a, b') ==> b' <= b
    decreases |s| - a
  {
    if a < |s| && IsSpace(s[a]) then SpaceRun(s, a + 1) else a
  }

  /** The end of the digit run starting at `a` (greedy `\d*`): no digit run
      from `a` is longer. */
  function DigitRun(s: string, a: nat): (b: nat)
    requires a <= |s|
    ensures a <= b <= |s| && (forall k :: a <= k < b ==> IsDigit(s[k])) && (b == |s| || !IsDigit(s[b]))
    ensures forall b': nat :: Digits(s, a, b') ==> b' <= b
    decreases |s| - a
  {
    if a < |s| && IsDigit(s[a]) then DigitRun(s, a + 1) else a
  }

  /** A whitespace run stops only where `SpaceRun` does. */
  lemma SpaceRunStopsAt(s: string, a: nat, b: nat)
    requires a <= |s| && Spaces(s, a, b) && (b == |s| || !IsSpace(s[b]))
    ensures b == SpaceRun(s, a)
  {
  }

  /** A digit run stops only where `DigitRun` does. */
  lemma DigitRunStopsAt(s: string, a: nat, b: nat)
    requires a <= |s| && Digits(s, a, b) && (b == |s| || !IsDigit(s[b]))
    ensures b == DigitRun(s, a)
  {
  }

  /** The suffix literal can follow `\s*` from `e`. */
  ghost predicate ViableEnd(s: string, p: Pattern, e: nat) {
    exists k: nat :: Spaces(s, e, k) && OccursAt(s, k, p.suffix)
  }

  /** Where the suffix starts after `\s*` from `e`, trying the longest
      whitespace stretch `[e, k)` first and backtracking down to `e`. */
  function SuffixFrom(s: string, p: Pattern, e: nat, k: nat): (r: Option<nat>)
    requires Spaces(s, e, k)
    ensures r.Some? ==> Spaces(s, e, r.value) && OccursAt(s, r.value, p.suffix)
    ensures r.None? ==> forall k' :: e <= k' <= k ==> !OccursAt(s, k', p.suffix)
    decreases k
  {
    if OccursAt(s, k, p.suffix) then Some(k)
    else if k == e then None
    else SuffixFrom(s, p, e, k - 1)
  }

  /** The trailing `\s*` and suffix after a digit run ending at `e`. */
  function Tail(s: string, p: Pattern, e: nat): (r: Option<nat>)
    requires e <= |s|
    ensures r.Some? ==> Spaces(s, e, r.value) && OccursAt(s, r.value, p.suffix)
    ensures r.None? ==> !ViableEnd(s, p, e)
  {
    SuffixFrom(s, p, e, SpaceRun(s, e))
  }

  /** Backtracking over a digit run starting at `start`: the longest end in
      (start, e] after which the suffix can follow, with where it follows. */
  function LastViableEnd(s: string, p: Pattern, start: nat, e: nat): (r: Option<(nat, nat)>)
    requires start < e <= |s|
    ensures r.Some? ==> && start < r.value.0 <= e
                        && Spaces(s, r.value.0, r.value.1) && OccursAt(s, r.value.1, p.suffix)
                        && forall e' :: r.value.0 < e' <= e ==> !ViableEnd(s, p, e')
    ensures r.None? ==> forall e' :: start < e' <= e ==> !ViableEnd(s, p, e')
    decreases e
  {
    match Tail(s, p, e)
    case Some(k) => Some((e, k))
    case None => if e == start + 1 then None else LastViableEnd(s, p, start, e - 1)
  }

  /** In every parse of the tail from `a` the year starts where `\s*` stops,
      ends inside the digit run there, and the suffix can follow it. */
  lemma YearFromForced(s: string, p: Pattern, a: nat, y: SingleTree)
    requires YearFrom(s, p, a, y)
    ensures a <= |s|
    ensures y.yearStart == SpaceRun(s, a)
    ensures y.yearEnd <= DigitRun(s, y.yearStart)
    ensures ViableEnd(s, p, y.yearEnd)
  {
    DigitIsNotSpace(s[y.yearStart]);
    SpaceRunStopsAt(s, a, y.yearStart);
  }

  /** The tail from `a` as backtracking resolves it: the year starting where
      `\s*` stops, with the longest end after which the suffix follows. */
  function YearScan(s: string, p: Pattern, a: nat): (r: Option<SingleTree>)
    requires a <= |s|
    ensures r.Some? ==> YearFrom(s, p, a, r.value)
    ensures r.Some? ==> forall y :: YearFrom(s, p, a, y) ==> y.yearEnd <= r.value.yearEnd
    ensures r.None? ==> forall y :: !YearFrom(s, p, a, y)
  {
    assert forall y | YearFrom(s, p, a, y) :: y.yearStart == SpaceRun(s, a) && y.yearEnd <= DigitRun(s, y.yearStart)
                                              && ViableEnd(s, p, y.yearEnd) by {
      forall y | YearFrom(s, p, a, y)
        ensures y.yearStart == SpaceRun(s, a) && y.yearEnd <= DigitRun(s, y.yearStart) && ViableEnd(s, p, y.yearEnd)
      {
        YearFromForced(s, p, a, y);
      }
    }
    var ys := SpaceRun(s, a);
    var ye := DigitRun(s, ys);
    if ye == ys then None
    else
      var last := LastViableEnd(s, p, ys, ye);
      if last.None? then None else Some(SingleTree(ys, last.value.0, last.value.1))
  }

  /** In every range head the `from` span and the hyphen are forced. */
  lemma RangeHeadForced(s: string, p: Pattern, i: nat, fromStart: nat, fromEnd: nat, dash: nat)
    requires RangeHeadAt(s, p, i, fromStart, fromEnd, dash)
    ensures i + |p.prefix| <= |s|
    ensures fromStart == SpaceRun(s, i + |p.prefix|)
    ensures fromEnd == DigitRun(s, fromStart)
    ensures dash == SpaceRun(s, fromEnd)
  {
    DigitIsNotSpace(s[fromStart]);
    SpaceRunStopsAt(s, i + |p.prefix|, fromStart);
    assert !IsDigit(s[fromEnd]) by {
      if fromEnd < dash {
        DigitIsNotSpace(s[fromEnd]);
      }
    }
    DigitRunStopsAt(s, fromStart, fromEnd);
    SpaceRunStopsAt(s, fromEnd, dash);
  }

  /** The head of the range alternative at `i`, which has at most one parse. */
  function RangeHeadScan(s: string, p: Pattern, i: nat): (r: Option<(nat, nat, nat)>)
    requires i <= |s|
    ensures r.Some? ==> RangeHeadAt(s, p, i, r.value.0, r.value.1, r.value.2)
    ensures forall fs: nat, fe: nat, h: nat :: RangeHeadAt(s, p, i, fs, fe, h) ==> r == Some((fs, fe, h))
  {
    assert forall fs: nat, fe: nat, h: nat | RangeHeadAt(s, p, i, fs, fe, h) ::
             fs == SpaceRun(s, i + |p.prefix|) && fe == DigitRun(s, fs) && h == SpaceRun(s, fe) by {
      forall fs: nat, fe: nat, h: nat | RangeHeadAt(s, p, i, fs, fe, h)
        ensures fs == SpaceRun(s, i + |p.prefix|) && fe == DigitRun(s, fs) && h == SpaceRun(s, fe)
      {
        RangeHeadForced(s, p, i, fs, fe, h);
      }
    }
    if !OccursAt(s, i, p.prefix) then None
    else
      var fs := SpaceRun(s, i + |p.prefix|);
      var fe := DigitRun(s, fs);
      if fe == fs then None
      else
        var h := SpaceRun(s, fe);
        if h == |s| || s[h] != '-' then None else Some((fs, fe, h))
  }

  /** The range alternative at `i`, as backtracking resolves it: the one head,
      then the tail with the longest `to`. */
  function RangeAt(s: string, p: Pattern, i: nat): (r: Option<RangeTree>)
    requires i <= |s|
    ensures r.Some? ==> FirstRangeAt(s, p, i, r.value)
    ensures r.None? ==> !RangeMatchesAt(s, p, i)
  {
    match RangeHeadScan(s, p, i)
    case None => None
    case Some((fs, fe, h)) =>
      match YearScan(s, p, h + 1)
      case None => None
      case Some(y) => Some(RangeTree(fs, fe, h, y.yearStart, y.yearEnd, y.suffixAt))
  }

  /** The single-year alternative at `i`, as backtracking resolves it. */
  function SingleAt(s: string, p: Pattern, i: nat): (r: Option<SingleTree>)
    requires i <= |s|
    ensures r.Some? ==> SingleTreeAt(s, p, i, r.value)
                        && forall t' :: SingleTreeAt(s, p, i, t') ==> t'.yearEnd <= r.value.yearEnd
    ensures r.None? ==> !SingleMatchesAt(s, p, i)
  {
    if !OccursAt(s, i, p.prefix) then None else YearScan(s, p, i + |p.prefix|)
  }
}
